=== FILE: README.md ===
# fancontrolcpp — a Dafny model of the fan regulation core

fancontrolcpp is a small daemon that drives one PC fan through Linux hwmon
pseudo-files. It has three parts:

- A PWM output, the "controller". Writing a value sets the duty cycle. A
  sibling file `<controller>_enable` switches the output to manual control.
- A fan-speed sensor and a temperature sensor. Each read returns one integer.
- A `fancontroller` object holding the three paths and seven tunable
  parameters (`min_temp`, `max_temp`, `min_start`, `min_stop`, `min_speed`,
  `min_pwm`, `max_pwm`), plus the small procedures built on them: `set_fan_pwm`,
  `set_full_speed`, `start_fan` and `stop_fan`.

The control loop calls `update` on every tick. It reads the temperature, the
current PWM value and the fan speed, then maps the temperature to a PWM value
through a linear or quadratic curve (`pwm_computer`). The new value may rise
only gradually, with each step one larger than the last, but may fall at once.
A stopped fan is held at 0 while the value is below `min_stop`. A stopped fan
that must turn goes through the start sequence. Finally the tick writes the
value.

The calibration program finds the parameters in two sweeps:

- The downward sweep lowers the PWM value from `max_pwm`. At each level it
  waits until a window of fan-speed samples settles, and it records the mean
  speed and temperature. The first level at which the fan stops gives
  `min_stop`.
- The upward sweep stops the fan, then raises the PWM value from `min_stop`
  until the fan starts and keeps turning at `min_stop`. That gives `min_start`.

## How the model is built

- **The device is an oracle** (`Sysfs.Env`). Each path has a queue of the values
  its successive reads will yield. A read of a path whose queue is empty fails.
  This stands for a file that cannot be opened or parsed. A write to a path
  outside the writable set fails. Successful writes are appended to `written`
  and successful reads to `seen`. Every polling loop therefore ends, because it
  consumes fan-speed values.
- **Exceptions are values.** Every `std::runtime_error` of the core is a
  constructor of `Sysfs.Error`, and procedures return `Outcome` or `Result`.
- **Each procedure has a specification function.** The function maps the device
  state (and parameters) before the call to the outcome and state after it:
  `StartFanRun`, `TickRun`, `DownRun`, `UpRun`, `CalibrateRun` and so on.
- **The methods have the C++ shape.** `FanController` is a class with the seven
  parameter fields. `ValueHistory` holds its window as a `seq`. `Regulator`
  holds `up_step`. The methods keep the C++ loops and are proved equal to those
  functions. The properties the C++ code promises are lemmas about the
  functions.
- **The curves are pure.** They are evaluated exactly over `real`.
  `static_cast<long>` is truncation toward zero.

### Where the model follows the code rather than the intent

- The settle test of the downward sweep is `range_relative() < precision`
  applied to the fan-speed window twice (calibrate.cpp:140-141). The temperature
  window is never checked. The model does the same, and
  `Calibration.TemperatureWindowIgnored` proves that the temperature window has
  no influence.
- `mean` divides the `long` sum by a `size_t`, so the division is unsigned.
  `ValueHistories.MeanOf` takes the sum modulo 2^64 and converts the quotient
  back to a signed value. Two things follow:
  - For non-negative samples whose sum fits in a `long`, it is the truncated
    average (`MeanOfNonNegative`).
  - A negative sum gives a meaningless result (`MeanOfNegativeSum`).
- If the fan stops at the first level, before any level has settled,
  `values.rbegin()` is dereferenced on an empty vector, which is undefined
  behaviour. The model reports this as the error `NoSettledPoint`, after
  `min_stop` has already been set, as in the C++ order.
- The `ok` flag of the downward sweep ends its outer loop after a stop. In the
  model the stop returns at once, which has the same effect.
- `update` first sets `new_pwm = min_start`, but every branch overwrites it. The
  model drops this dead store.
- `sleep` is assumed to return 0, so `while (!sleep(interval))` is an unbounded
  polling loop. The polling ends when the fan-speed queue runs out.
- The curves clamp with `<` and `>`, and `calculate` truncates toward zero. There
  is no hysteresis and no rounding toward minus infinity.

### Assumptions stated as preconditions

- `samples > 0` for the downward sweep. With `samples == 0` the windows are
  empty, and `pop_front` on an empty `std::list` is undefined. A negative
  `samples` is converted to a huge `size_t` by the `value_history` constructor
  (calibrate.cpp:23), which then throws or runs out of memory; the model does not
  represent that either.
- `min_temp != max_temp` for building a curve, because both constructors divide
  by `max_temp - min_temp`. With `min_temp > max_temp` the curve is built, and
  `pwm_for` never evaluates it: every temperature is below `min_temp` or above
  `max_temp`. The monotonicity lemmas of the curves assume `min_temp < max_temp`.
  With `min_temp == max_temp` the C++ division is a `long double` one and does
  not trap: the coefficients become infinite or NaN, `pwm_for` still gives
  `min_pwm` below and `max_pwm` above that temperature, and only at exactly
  `min_temp` does it cast a non-finite value to `long`, which is undefined. The
  model excludes this whole configuration.
- Most lemmas about the sweeps assume that the fan-speed and temperature paths
  differ (`ports.fanSensor != ports.tempSensor`). The tick lemmas assume that all
  three paths differ (`Regulation.Distinct`).

## Model

| member | source | states |
|---|---|---|
| Sysfs.Read | fancontroller.cpp:44-54 | A read yields the next pending value of the path and logs it as read. If the path has no value, the read fails with "Unable to read" and changes nothing. A read never writes. |
| Sysfs.ReadFrame | fancontroller.cpp:44-54 | A read removes one value from its own path's queue and leaves every other path's queue as it was. |
| Sysfs.ReadsCommute | fancontroller.cpp:44-54 | Reads of two different paths yield the same values, and leave the same queues, in either order. |
| Sysfs.WriteTo | fancontroller.cpp:56-67 | A write to a writable path appends exactly that path and value to the write log. Otherwise it fails with "Unable to write value to path" and changes nothing. It never reads. |
| FanControllers.OpenEffects | fancontroller.cpp:17-35 | Construction succeeds exactly when the PWM file can be written, both sensor files exist and `controller + "_enable"` accepts a write. Its only effect is then writing 1 to that enabler. |
| FanControllers.FanController.Open | fancontroller.cpp:17-35 | Agrees with `OpenRun`. On success it returns a fresh controller with the given paths, the given parameters and the enabler path `controller + "_enable"`. |
| FanControllers.FanController.Init | fancontroller.cpp:23-27 | The member initialisers of the fields declared in lib/fancontroller.h (lines 7-19): the three const paths, the seven parameters as given, and the const enabler path `controller + "_enable"`. |
| FanControllers.FanController.Dispose | fancontroller.cpp:37-42 | The destructor leaves the device as writing `max_pwm` to the controller leaves it. A failure of that write is swallowed. |
| FanControllers.FanController.ReadValue | fancontroller.cpp:44-54 | Agrees with `Read` on the device, and changes nothing else. |
| FanControllers.FanController.WriteValue | fancontroller.cpp:56-67 | Agrees with `WriteTo` on the device, and changes nothing else. |
| FanControllers.FanController.ReadTemperature | fancontroller.cpp:69-71 | A read of the temperature path. It modifies only the device, so the parameters do not change. |
| FanControllers.FanController.ReadFanSpeed | fancontroller.cpp:73-75 | A read of the fan-speed path. It modifies only the device. |
| FanControllers.FanController.ReadFanPwm | fancontroller.cpp:77-79 | A read of the controller path. It modifies only the device. |
| FanControllers.FanController.SetFanPwm | fancontroller.cpp:81-83 | Writes exactly `pwm` to the controller path and nothing else, or fails without effect. |
| FanControllers.FanController.SetFullSpeed | fancontroller.cpp:85-87 | Writes `max_pwm` to the controller path, the fail-safe. |
| FanControllers.FanController.StartFan | fancontroller.cpp:89-101 | The ramp loop agrees with `StartFanRun`: write `min_start`, then step up by one while the fan reads below `min_speed`, giving up at `max_pwm`. |
| FanControllers.RampUpWrites | fancontroller.cpp:93-100 | After `pwm`, the loop writes `pwm + 1, pwm + 2, ...` and never passes `max(pwm, max_pwm)`. On "Unable to start fan!" it has reached exactly that level. |
| FanControllers.RampUpReads | fancontroller.cpp:93-100 | The loop reads only the fan speed, and every read but the last is below `min_speed`. It returns normally only after a read of at least `min_speed`. |
| FanControllers.StartFanEffects | fancontroller.cpp:89-101 | `start_fan` writes `min_start, min_start + 1, ...` with no value above `max(min_start, max_pwm)`. It writes something exactly when the controller is writable. Giving up comes right after writing `max(min_start, max_pwm)`. Success comes right after a fan-speed read of at least `min_speed`, every earlier read being below it. |
| FanControllers.FanController.StopFan | fancontroller.cpp:103-107 | The polling loop agrees with `StopFanRun`: write 0, then read the fan speed until it is 0. |
| FanControllers.PollEffects | fancontroller.cpp:105-106 | The polling writes nothing and reads only the fan speed, every read but the last being nonzero. It ends normally on a 0, or fails only when the fan-speed values run out. |
| FanControllers.StopFanEffects | fancontroller.cpp:103-107 | `stop_fan` writes 0 once and nothing else. It returns normally only after a fan-speed read of 0, every earlier read having been nonzero. |
| FanControllers.FanController.SetMinTemp | lib/fancontroller.h:41 | Changes `min_temp` to the value and no other parameter. |
| FanControllers.FanController.SetMaxTemp | lib/fancontroller.h:42 | Changes `max_temp` to the value and no other parameter. |
| FanControllers.FanController.SetMinStart | lib/fancontroller.h:43 | Changes `min_start` to the value and no other parameter. |
| FanControllers.FanController.SetMinStop | lib/fancontroller.h:44 | Changes `min_stop` to the value and no other parameter. |
| FanControllers.FanController.SetMinSpeed | lib/fancontroller.h:45 | Changes `min_speed` to the value and no other parameter. |
| FanControllers.FanController.SetMinPwm | lib/fancontroller.h:46 | Changes `min_pwm` to the value and no other parameter. |
| FanControllers.FanController.SetMaxPwm | lib/fancontroller.h:47 | Changes `max_pwm` to the value and no other parameter. |
| PwmCurves.Trunc | fancontrol.cpp:68-70 | `static_cast<long>` keeps the integer part. For `x >= 0`, `r <= x < r + 1`. For `x < 0`, `r - 1 < x <= r`. |
| PwmCurves.TruncIsNotFloor | fancontrol.cpp:68-70 | The cast is truncation, not floor: -0.5 becomes 0, while its floor is -1. |
| PwmCurves.PwmFor | fancontrol.cpp:47-54 | Below `min_temp` the result is `min_pwm`. Above `max_temp` it is `max_pwm`. In between it is `calculate(temperature)`. |
| PwmCurves.NewLinear | fancontrol.cpp:64-67 | For `min_temp != max_temp`, the line built from `a` and `b` keeps the five parameters and passes exactly through `(min_temp, min_stop)` and `(max_temp, max_pwm)`. `LinearNonDecreasing` states its slope. |
| PwmCurves.LinearNonDecreasing | fancontrol.cpp:64-70 | With `min_temp < max_temp` and `min_stop <= max_pwm`, the line is non-decreasing. |
| PwmCurves.QuadraticVertexForm | fancontrol.cpp:80-86 | Because `b = -2 * min_temp * a`, the parabola is `a * (t - min_temp)^2 + min_stop`, with `a * (max_temp - min_temp)^2 = max_pwm - min_stop`. |
| PwmCurves.NewQuadratic | fancontrol.cpp:80-86 | For `min_temp != max_temp`, the parabola keeps the five parameters and takes the value `min_stop` at `min_temp` and `max_pwm` at `max_temp`. `QuadraticVertexForm` and `QuadraticNonDecreasing` state its shape. |
| PwmCurves.Calculate | fancontrol.cpp:68-92 | `calculate` is the curve's exact value cut toward zero: within 1 of it, never farther from 0. `CalculateAtEndpoints` gives its values at the two anchors. |
| PwmCurves.QuadraticNonDecreasing | fancontrol.cpp:80-92 | With `min_temp < max_temp` and `min_stop <= max_pwm`, the parabola is non-decreasing from `min_temp` on. |
| PwmCurves.CalculateAtEndpoints | fancontrol.cpp:64-92 | After the cast, either curve gives exactly `min_stop` at `min_temp` and `max_pwm` at `max_temp`. |
| PwmCurves.ValueNonDecreasing | fancontrol.cpp:64-92 | Either curve, before the cast, is non-decreasing from `min_temp` on when `min_temp < max_temp` and `min_stop <= max_pwm`. |
| PwmCurves.PwmForInRange | fancontrol.cpp:47-54 | Between the two temperatures, `pwm_for` stays within `[min_stop, max_pwm]`. |
| PwmCurves.PwmForMonotone | fancontrol.cpp:47-54 | With `min_pwm <= min_stop <= max_pwm`, a hotter reading never yields a smaller PWM value. |
| Regulation.StallGuard | fancontrol.cpp:124-131 | A stopped fan whose filtered value is below `min_stop` gets exactly 0 with the step doubled. In every other case (a running fan, or a filtered value of at least `min_stop`) the filtered value and step pass through unchanged, so a stopped fan is never driven at a nonzero value below `min_stop`. |
| Regulation.Decide | fancontrol.cpp:101-135 | The tick's decision: the curve's value; an applied value that is 0 or at most the curve's, rises by at most the grown step, and for a stopped fan is 0 or at least `min_stop`; a fall applied at once with the step reset; and a start exactly when a nonzero value meets a stopped fan. `StallGuardZeroes` relates it to `StepLimit`. |
| Regulation.StepLimit | fancontrol.cpp:109-119 | Rising: the output is `min(cur + up_step + 1, computed)`, above `cur`. The step becomes `up_step + 1`, or resets to 0 exactly when the output reaches `computed`. Not rising: the output is `computed` and the step is 0. The output never exceeds `computed`. |
| Regulation.Regulator.constructor | fancontrol.cpp:108 | `up_step` starts at 0. |
| Regulation.Regulator.Filter | fancontrol.cpp:105-131 | The filter and the stall guard update the kept step exactly as `StepLimit` followed by `StallGuard` do. |
| Regulation.Regulator.Update | fancontrol.cpp:94-142 | One tick agrees with `TickRun`: three reads, the curve, the filter, the stall guard, the start sequence when needed, then the write. |
| Regulation.ClimbTowardTarget | fancontrol.cpp:109-119 | Under a constant target above the current value, starting from a step of 0, `n` ticks raise the value by `1 + 2 + ... + n` until it reaches the target. There it stays, with the step back at 0. |
| Regulation.StallGuardZeroes | fancontrol.cpp:124-135 | If the fan reads 0 and the filtered value is below `min_stop`, the value applied is 0, the step doubles and the fan is not started. Otherwise the filtered value and step pass through. The start sequence runs exactly when the value applied is nonzero and the fan read 0. |
| Regulation.TickReadFailure | fancontrol.cpp:94-97 | If one of the three reads fails, the tick fails with a read error, writes nothing and keeps the step, whether or not the three paths differ. |
| Regulation.TickEffects | fancontrol.cpp:94-142 | With its readings available, a tick keeps the step the decision computes. It never removes a write. Without a start it writes the decided value once. With a start, its first write is `min_start`. On success its last write is the decided value. |
| ValueHistories.Zeros | calibrate.cpp:23 | A fresh window of `n` samples holds exactly `n` zeros. |
| ValueHistories.ValueHistory.constructor | calibrate.cpp:23 | A new `value_history(n)` holds `n` zeros. |
| ValueHistories.ValueHistory.Push | calibrate.cpp:25-28 | `push` drops the oldest sample and appends the new one. |
| ValueHistories.PushAll | calibrate.cpp:25-28 | Any number of pushes keeps the window length. |
| ValueHistories.ValueHistory.RangeRelative | calibrate.cpp:30-34 | `(max - min) / min` over the window, as an IEEE quotient: finite, infinite or NaN. |
| ValueHistories.ValueHistory.Mean | calibrate.cpp:36-44 | The summing loop yields `MeanOf`: the sum divided by the size in unsigned 64-bit arithmetic, cast back to `long`. |
| ValueHistories.MinMaxBound | calibrate.cpp:31-32 | The smallest and the largest sample are samples of the window and bound every sample. |
| ValueHistories.MeanOfNonNegative | calibrate.cpp:36-44 | For non-negative samples whose sum fits in a `long`, `mean` is the truncated average and lies between the smallest and the largest sample. |
| ValueHistories.MeanOfFives | calibrate.cpp:36-44 | The window `[5, 5, 5, 5, 5]` has mean 5. |
| ValueHistories.MeanOfNegativeSum | calibrate.cpp:43 | Because the division is unsigned, the window `[-2, 0]` has mean `2^63 - 1`, not -1. |
| ValueHistories.RangeRelativeOfConstant | calibrate.cpp:30-34 | A window of one repeated nonzero value has relative range 0. |
| ValueHistories.ZeroNeverSettles | calibrate.cpp:30-34 | While a window of non-negative samples holds a 0, `range_relative() < precision` is false, because the quotient is +inf or NaN. |
| ValueHistories.FreshWindowHoldsZero | calibrate.cpp:23-28 | A fresh window of `n` zeros still holds a 0 after fewer than `n` pushes. |
| ValueHistories.FreshWindowUnsettled | calibrate.cpp:111-141 | A fresh window of non-negative samples cannot settle before `n` samples have been pushed. |
| Calibration.PollOnce | calibrate.cpp:116-148 | A pass that does not end keeps both window sizes and consumes one fan-speed value, so the polling loop ends. |
| Calibration.Level | calibrate.cpp:111-149 | One level of the downward sweep (fresh windows, the write, the polling loop) agrees with `LevelRun`. |
| Calibration.FindMinStopMinSpeedMinTemp | calibrate.cpp:96-161 | The downward sweep agrees with `DownRun`. |
| Calibration.SweepLevel | calibrate.cpp:109-151 | One pass of the outer loop either ends the sweep with the sweep's own result, or leaves the parameters unchanged with the rest of the sweep starting at `pwm - 1` and the new settled pair recorded. |
| Calibration.RecordStop | calibrate.cpp:126-137 | On a stop, `min_stop` becomes `pwm + 1`, and `min_speed` and `min_temp` come from the last settled pair. With no settled pair the result is `NoSettledPoint`. |
| Calibration.NoStopDetected | calibrate.cpp:154-160 | With no stop, `min_stop` becomes `min_pwm + 1`, and `min_speed` and `min_temp` come from one live read each. |
| Calibration.ConfirmStart | calibrate.cpp:72-79 | The validation loop agrees with `Confirm`: up to `samples` fan-speed reads, stopping at the first 0. |
| Calibration.TryLevel | calibrate.cpp:61-86 | One pass of the upward loop agrees with `TryCandidate`. |
| Calibration.FindMinStart | calibrate.cpp:48-92 | The upward sweep agrees with `UpRun`. |
| Calibration.Calibrate | calibrate.cpp:163-167 | Calibration agrees with `CalibrateRun`: the downward sweep, then the upward sweep with the parameters it left. |
| Calibration.PollOnceEffects | calibrate.cpp:116-148 | A pass writes nothing. If it does not fail on a read, it reads one fan speed, then one temperature. A temperature of at least `max_temp` ends it with "Temperature too high!". Below that, a fan speed of 0 ends it with a stop. Only a nonzero speed lets it settle or go on. |
| Calibration.ObserveFrame | calibrate.cpp:116-149 | The wait at one level writes nothing and only appends reads. |
| Calibration.ObserveCool | calibrate.cpp:119-124 | Unless the wait ends with "Temperature too high!", every temperature it read is below `max_temp`. |
| Calibration.ObserveTooHot | calibrate.cpp:119-124 | "Temperature too high!" comes right after a temperature read of at least `max_temp`. |
| Calibration.ObserveHotOnce | calibrate.cpp:119-124 | In that case every earlier temperature was below `max_temp`. |
| Calibration.ObserveStopped | calibrate.cpp:117-126 | A stop is reported only right after a fan-speed read of 0, followed by that pass's temperature read. |
| Calibration.ObserveFirstZero | calibrate.cpp:116-138 | That 0 is the first fan speed of 0 the wait read. |
| Calibration.ObserveSettled | calibrate.cpp:126-148 | A settled level is reported only if no fan-speed read was 0. |
| Calibration.ObserveErrors | calibrate.cpp:116-149 | The wait at one level fails only on a read or with "Temperature too high!". |
| Calibration.TemperatureWindowIgnored | calibrate.cpp:140-143 | Two waits that differ only in the temperature window read the same values and end the same way, with the same mean speed. |
| Calibration.LevelWrites | calibrate.cpp:114 | A level writes `pwm` to the controller and nothing else, and fails at once with "Unable to write" if it cannot. |
| Calibration.LevelReads | calibrate.cpp:111-149 | The temperature facts of the wait hold for the whole level, and a stop follows a fan-speed read of 0. |
| Calibration.LevelZeros | calibrate.cpp:111-149 | A level that settles read no fan speed of 0; one that stops read its only 0 just before its last read. A level fails only on the write, on a read or on an over-temperature. |
| Calibration.FallbackWrites | calibrate.cpp:154-160 | The fallback writes nothing. It sets `min_stop = min_pwm + 1`, changes only `min_stop`, `min_speed` and `min_temp`, and fails only on a read. |
| Calibration.FallbackReads | calibrate.cpp:154-160 | On success, `min_speed` and `min_temp` are exactly the two readings taken then. The temperature is not checked against `max_temp`. |
| Calibration.SweepStepWrites | calibrate.cpp:109-151 | One level writes at most `pwm`, and going on to the next level means it was written. |
| Calibration.SweepStepParams | calibrate.cpp:126-137 | A level that ends the sweep changes only `min_stop`, `min_speed` and `min_temp`. It succeeds only on a stop, with `min_stop = pwm + 1` right after writing `pwm`. |
| Calibration.SweepStepReads | calibrate.cpp:116-148 | Each level keeps the temperature bound except on "Temperature too high!". A successful end follows a fan-speed read of 0. |
| Calibration.SweepStepZeros | calibrate.cpp:109-151 | Going on to the next level means no fan speed of 0 was read at this one, and that a pair was recorded. A successful end read its only 0 just before its last read. `NoSettledPoint` comes only from a stop with no pair recorded, and sets `min_stop = pwm + 1`. |
| Calibration.SweepDownWrites | calibrate.cpp:106-152 | The sweep writes `max_pwm, max_pwm - 1, ...` and nothing else, never `min_pwm` or below. |
| Calibration.SweepDownKeeps | calibrate.cpp:96-161 | The downward sweep changes only `min_stop`, `min_speed` and `min_temp`. |
| Calibration.SweepDownMinStop | calibrate.cpp:109-160 | On success, `min_pwm < min_stop <= max(max_pwm, min_pwm) + 1`. |
| Calibration.SweepDownStopLevel | calibrate.cpp:126-137 | A success with `min_stop > min_pwm + 1` ended on a stop, and its last write was the stop level `min_stop - 1`. |
| Calibration.SweepDownCool | calibrate.cpp:122-124 | Every temperature the sweep reads, except possibly the last, is below `max_temp`. |
| Calibration.SweepDownTooHot | calibrate.cpp:122-124 | "Temperature too high!" comes right after a temperature read of at least `max_temp`. |
| Calibration.SweepDownStopRead | calibrate.cpp:122-138 | A sweep that ended on a stop checked every temperature it read, and its second-to-last read was a fan speed of 0. |
| Calibration.SweepDownFirstZero | calibrate.cpp:109-138 | A sweep that ends on a stop read no fan speed of 0 before the final one: the stop is at the first level where the fan is seen stopped. |
| Calibration.SweepDownSettledPair | calibrate.cpp:126-148 | On a stop, `min_speed` and `min_temp` are the pair settled at level `min_stop`, the level above the stop. When the stop is at the first level, they are the last pair recorded before the sweep. |
| Calibration.SweepDownNoSettledPoint | calibrate.cpp:126-137 | `NoSettledPoint` happens only when the fan stops at the very first level of a sweep that starts with no pair, and then `min_stop` is that level plus 1. |
| Calibration.ConfirmReads | calibrate.cpp:72-79 | The validation reads only the fan speed. It confirms after `samples` nonzero reads, refutes right after the first 0, and otherwise fails only on a read. |
| Calibration.TryWrites | calibrate.cpp:61-86 | A trial writes the candidate first. Any error is a read failure, a write failure or "Temperature too high!". A confirmed start writes exactly the candidate and then `min_stop`. |
| Calibration.TryConfirmed | calibrate.cpp:69-84 | A confirmed start ends with `samples` nonzero fan-speed reads. |
| Calibration.TryReads | calibrate.cpp:65-67 | Every temperature a trial reads is below `max_temp`, unless it aborts with "Temperature too high!" right after reading one that is not. |
| Calibration.SearchFrame | calibrate.cpp:59-89 | The upward search only appends to the two logs. |
| Calibration.SearchParams | calibrate.cpp:80-91 | The upward search changes only `min_start`, and only on success, to a candidate in `[pwm, max_pwm)`. |
| Calibration.SearchStarted | calibrate.cpp:69-84 | On success, the last two writes are the accepted candidate and then `min_stop`, and the last `samples` reads are nonzero fan speeds. |
| Calibration.SearchFirst | calibrate.cpp:59-91 | A successful upward search accepted the first candidate whose trial starts the fan: replaying the trials from `pwm`, every candidate below `min_start` missed, and the trial of `min_start` started the fan and left the device as the search ends. |
| Calibration.MissedTried | calibrate.cpp:59-89 | When every trial of `[pwm, level)` missed, each of those levels was written to the controller after the old log, which is kept. |
| Calibration.SearchTriedBelow | calibrate.cpp:59-91 | A successful upward search wrote every candidate of `[pwm, min_start)` before accepting `min_start`. |
| Calibration.SearchTried | calibrate.cpp:59-91 | "No fan start detected!" comes only after every level of `[pwm, max_pwm)` was written. |
| Calibration.SearchExhausted | calibrate.cpp:59-91 | The upward search fails with "No fan start detected!" exactly when the trial of every candidate of `[pwm, max_pwm)` missed. It then leaves the device as those trials left it and changes no parameter. |
| Calibration.SearchReads | calibrate.cpp:65-67 | The same temperature bound as for one trial, for the whole search. |
| Calibration.UpRunEffects | calibrate.cpp:48-92 | `find_min_start` first writes 0. It changes only `min_start`, and only on success, to a level in `[min_stop, max_pwm)`, after writing every level of `[min_stop, min_start)`. Once the fan has stopped, it fails with "No fan start detected!" exactly when every candidate of `[min_stop, max_pwm)` missed. |
| Calibration.CalibrateEffects | calibrate.cpp:163-167 | A successful calibration leaves `min_pwm < min_stop <= min_start < max_pwm`. `min_stop`, `min_speed` and `min_temp` come from the downward sweep, `min_start` from the upward sweep started at that `min_stop`, and no other parameter changes. Every level of `[min_stop, min_start)` was written after the downward sweep. |

## Left out

- `main` in fancontrol.cpp and in calibrate.cpp is not part of this model: option
  parsing, the configuration file, console output, and choosing the curve from
  `pwm_algorithm` (fancontrol.cpp:144-271).
- The SIGINT handler and the `sigint` flag are not modelled. They are signal
  plumbing around the control loop, and the loop itself is not part of this model.
- pidfile.cpp and lib/pidfile.h are not part of this model. They handle
  single-instance locking through the file system.
- A curve with `min_temp == max_temp` is not modelled. The C++ code builds one
  with non-finite coefficients, which `pwm_for` uses only at `min_temp`, and
  there undefinedly; the model has no non-finite reals for it.
- A negative `samples` in the downward sweep is not modelled. The C++ code
  converts it to a huge window size, which throws or exhausts memory.
- `sleep` and the polling intervals are not modelled. Each `sleep` is assumed to
  return 0 at once.
- File-stream behaviour is not modelled. Opening, parsing and the exact failure
  modes of `std::ifstream`/`std::ofstream` are abstracted into the oracle's
  empty queue and writable set.
- The constructor checks that the sensors can be opened. In the model this is
  "the path has a queue in the oracle".
- `long double`, `double` and `pow` are not modelled bit-exactly. The curves and
  `range_relative` are exact over `real`, with IEEE infinities and NaN kept only
  for the division by zero in `range_relative`. The `double` comparison with
  `precision` is exact.
- 64-bit overflow of `long` is not modelled, except for the unsigned division in
  `mean`. Sums, increments such as `pwm + 1`, and `up_step * 2` are unbounded
  integers.
- The getters are not separate members. They are plain field reads, and
  `FanController.Parameters()` returns all seven at once.
- The `MY_DEBUG` output and all console output are not modelled.
- `Calibration.PollOnce`: its own contract states only what termination needs.
  The behaviour of a pass is stated in `PollOnceEffects`.
- The lemmas assume that the fan-speed and temperature paths differ, and the
  tick lemmas that all three paths differ. The functions and methods do not
  assume it.

=== FILE: calibration.dfy ===
/**
  The calibration of one fan (`calibrate.cpp`).

  The downward sweep lowers the PWM value one step at a time from `max_pwm`,
  waiting at each level for the fan speed to settle, and records the settled
  (speed, temperature) means; the first level at which the fan is seen stopped
  gives `min_stop`, and the last settled pair gives `min_speed` and `min_temp`.
  The upward sweep stops the fan, then raises the PWM value from `min_stop` until
  the fan starts and keeps turning at `min_stop`, which gives `min_start`.

  Each sweep is specified by a function of the device state and the parameters
  before it; the methods follow the C++ loops and are proved to agree.
 */
module Calibration {
  import opened Sysfs
  import opened FanControllers
  import opened ValueHistories

  /** The outcome of a calibration step, the parameters and the device after it. */
  datatype Calib = Calib(outcome: Outcome, params: Params, env: Env)

  /** How the wait at one PWM level ended. */
  datatype Observation = Stopped | Settled(speed: int, temperature: int)

  datatype Option<T> = None | Some(value: T)

  // ---------------------------------------------------------------------------
  // The downward sweep

  /** How one pass of the polling loop ends: the wait is over, or it goes on with
      the windows after the pass. */
  datatype Poll = Ended(run: Run<Observation>) | Continue(next: Env, speeds: seq<int>, temps: seq<int>)

  /** One pass of the polling loop: push a fan-speed and a temperature reading into
      their windows, then stop on an over-temperature, on a fan speed of 0, or on a
      settled window.  The C++ code tests the fan-speed window twice and never the
      temperature window. */
  function PollOnce(e: Env, ports: Ports, maxTemp: int, precision: real,
                    speeds: seq<int>, temps: seq<int>): (r: Poll)
    requires speeds != [] && temps != []
    ensures r.Continue? ==>
              && |r.speeds| == |speeds| && |r.temps| == |temps|
              && |r.next.Avail(ports.fanSensor)| < |e.Avail(ports.fanSensor)|
  {
    var f := Read(e, ports.fanSensor);
    if f.result.Err? then Ended(Run(Err(f.result.error), f.env)) else
    var speeds' := speeds[1..] + [f.result.value];
    var t := Read(f.env, ports.tempSensor);
    if t.result.Err? then Ended(Run(Err(t.result.error), t.env)) else
    var temps' := temps[1..] + [t.result.value];
    if t.result.value >= maxTemp then Ended(Run(Err(TemperatureTooHigh), t.env))
    else if f.result.value == 0 then Ended(Run(Ok(Stopped), t.env))
    else if Below(RangeRelativeOf(speeds'), precision) && Below(RangeRelativeOf(speeds'), precision) then
      Ended(Run(Ok(Settled(MeanOf(speeds'), MeanOf(temps'))), t.env))
    else Continue(t.env, speeds', temps')
  }

  /** The polling loop at one level, until a pass ends the wait. */
  function ObserveLevel(e: Env, ports: Ports, maxTemp: int, precision: real,
                        speeds: seq<int>, temps: seq<int>): Run<Observation>
    requires speeds != [] && temps != []
    decreases |e.Avail(ports.fanSensor)|
  {
    match PollOnce(e, ports, maxTemp, precision, speeds, temps)
    case Ended(r) => r
    case Continue(next, speeds', temps') => ObserveLevel(next, ports, maxTemp, precision, speeds', temps')
  }

  /** One level of the downward sweep: write `pwm`, then wait with fresh windows
      of `samples` zeros. */
  function LevelRun(e: Env, ports: Ports, maxTemp: int, samples: nat, precision: real, pwm: int)
    : Run<Observation>
    requires samples > 0
  {
    var w := WriteTo(e, ports.controller, pwm);
    if w.outcome.Fail? then Run(Err(w.outcome.error), w.env)
    else ObserveLevel(w.env, ports, maxTemp, precision, Zeros(samples), Zeros(samples))
  }

  /** What one level of the downward sweep leads to: the end of the sweep, or the
      next level with the settled pair recorded. */
  datatype Sweep = Finished(calib: Calib) | Next(next: Env, values: seq<(int, int)>)

  /** One level of the downward sweep, with the settled pairs `values` recorded so far. */
  function SweepStep(e: Env, ports: Ports, p: Params, samples: nat, precision: real,
                     pwm: int, values: seq<(int, int)>): Sweep
    requires samples > 0
  {
    var o := LevelRun(e, ports, p.maxTemp, samples, precision, pwm);
    if o.result.Err? then Finished(Calib(Fail(o.result.error), p, o.env)) else
    match o.result.value
    case Stopped =>
      var (outcome, q) := StopAt(p, pwm, values);
      Finished(Calib(outcome, q, o.env))
    case Settled(speed, temperature) =>
      Next(o.env, values + [(speed, temperature)])
  }

  /** The sweep from level `pwm` down to `min_pwm + 1`, then the fallback. */
  function SweepDown(e: Env, ports: Ports, p: Params, samples: nat, precision: real,
                     pwm: int, values: seq<(int, int)>): Calib
    requires samples > 0
    decreases pwm - p.minPwm
  {
    if pwm <= p.minPwm then Fallback(e, ports, p) else
    match SweepStep(e, ports, p, samples, precision, pwm, values)
    case Finished(c) => c
    case Next(next, values') => SweepDown(next, ports, p, samples, precision, pwm - 1, values')
  }

  /** The fan stopped at level `pwm`: `min_stop` is the level above, and
      `min_speed` and `min_temp` come from the last settled pair, which must exist. */
  function StopAt(p: Params, pwm: int, values: seq<(int, int)>): (Outcome, Params) {
    var stopped := p.(minStop := pwm + 1);
    if values == [] then (Fail(NoSettledPoint), stopped)
    else (Pass, stopped.(minSpeed := Last(values).0, minTemp := Last(values).1))
  }

  /** No stop seen: `min_stop = min_pwm + 1`, speed and temperature read live. */
  function Fallback(e: Env, ports: Ports, p: Params): Calib {
    var stopped := p.(minStop := p.minPwm + 1);
    var f := Read(e, ports.fanSensor);
    if f.result.Err? then Calib(Fail(f.result.error), stopped, f.env) else
    var t := Read(f.env, ports.tempSensor);
    if t.result.Err? then Calib(Fail(t.result.error), stopped.(minSpeed := f.result.value), t.env)
    else Calib(Pass, stopped.(minSpeed := f.result.value, minTemp := t.result.value), t.env)
  }

  /** `find_min_stop_min_speed_min_temp`. */
  function DownRun(e: Env, ports: Ports, p: Params, samples: nat, precision: real): Calib
    requires samples > 0
  {
    SweepDown(e, ports, p, samples, precision, p.maxPwm, [])
  }

  // ---------------------------------------------------------------------------
  // The upward sweep

  /** The confirmation loop: `n` more fan-speed reads, stopping at the first 0. */
  function Confirm(e: Env, fanSensor: string, n: int): Run<bool>
    decreases n
  {
    if n <= 0 then Run(Ok(true), e) else
    var f := Read(e, fanSensor);
    if f.result.Err? then Run(Err(f.result.error), f.env)
    else if f.result.value == 0 then Run(Ok(false), f.env)
    else Confirm(f.env, fanSensor, n - 1)
  }

  /** How the trial of one candidate start level ends. */
  datatype Trial = Aborted(error: Error, env: Env) | Started(env: Env) | Missed(env: Env)

  /** The trial of candidate `pwm`: write it, check the temperature, read the fan
      speed; if the fan turns, write `min_stop` back and confirm. */
  function TryCandidate(e: Env, ports: Ports, p: Params, samples: int, pwm: int): Trial {
    var w := WriteTo(e, ports.controller, pwm);
    if w.outcome.Fail? then Aborted(w.outcome.error, w.env) else
    var t := Read(w.env, ports.tempSensor);
    if t.result.Err? then Aborted(t.result.error, t.env)
    else if t.result.value >= p.maxTemp then Aborted(TemperatureTooHigh, t.env) else
    var f := Read(t.env, ports.fanSensor);
    if f.result.Err? then Aborted(f.result.error, f.env)
    else if f.result.value == 0 then Missed(f.env) else
    var back := WriteTo(f.env, ports.controller, p.minStop);
    if back.outcome.Fail? then Aborted(back.outcome.error, back.env) else
    var c := Confirm(back.env, ports.fanSensor, samples);
    if c.result.Err? then Aborted(c.result.error, c.env)
    else if c.result.value then Started(c.env)
    else Missed(c.env)
  }

  /** The search for the start level, from candidate `pwm` up. */
  function Search(e: Env, ports: Ports, p: Params, samples: int, pwm: int): Calib
    decreases p.maxPwm - pwm
  {
    if pwm >= p.maxPwm then Calib(Fail(NoFanStartDetected), p, e) else
    match TryCandidate(e, ports, p, samples, pwm)
    case Aborted(error, env) => Calib(Fail(error), p, env)
    case Started(env) => Calib(Pass, p.(minStart := pwm), env)
    case Missed(env) => Search(env, ports, p, samples, pwm + 1)
  }

  /** The environment left by trials of the candidates `[pwm, level)` when every
      one of them missed, or `None` when one of them did not. */
  function MissedThrough(e: Env, ports: Ports, p: Params, samples: int, pwm: int, level: int): Option<Env>
    decreases level - pwm
  {
    if level <= pwm then Some(e) else
    match TryCandidate(e, ports, p, samples, pwm)
    case Missed(env) => MissedThrough(env, ports, p, samples, pwm + 1, level)
    case _ => None
  }

  /** `find_min_start`. */
  function UpRun(e: Env, ports: Ports, p: Params, samples: int): Calib {
    var s := StopFanRun(e, ports);
    if s.outcome.Fail? then Calib(s.outcome, p, s.env)
    else Search(s.env, ports, p, samples, p.minStop)
  }

  /** `calibrate`: the downward sweep, then the upward sweep with its results. */
  function CalibrateRun(e: Env, ports: Ports, p: Params, samples: nat, precision: real): Calib
    requires samples > 0
  {
    var down := DownRun(e, ports, p, samples, precision);
    if down.outcome.Fail? then down
    else UpRun(down.env, ports, down.params, samples)
  }

  // ---------------------------------------------------------------------------
  // The procedures

  /** One level of the downward sweep: the PWM value is written, then each pass of
      the polling loop pushes a fan-speed and a temperature reading into fresh
      windows of `samples` zeros, until the fan is stopped or its window settles. */
  method Level(fc: FanController, pwm: int, samples: nat, precision: real)
    returns (r: Result<Observation>)
    requires samples > 0
    modifies fc.dev
    ensures Run(r, fc.dev.State())
            == LevelRun(old(fc.dev.State()), fc.Paths(), fc.maxTemp, samples, precision, pwm)
  {
    var fanSpeedHistory := new ValueHistory(samples);
    var temperatureHistory := new ValueHistory(samples);

    var o := fc.SetFanPwm(pwm);
    if o.Fail? {
      return Err(o.error);
    }
    ghost var goal := ObserveLevel(fc.dev.State(), fc.Paths(), fc.maxTemp, precision,
                                   Zeros(samples), Zeros(samples));

    while true
      invariant fresh(fanSpeedHistory) && fresh(temperatureHistory)
      invariant |fanSpeedHistory.history| == |temperatureHistory.history| == samples
      invariant ObserveLevel(fc.dev.State(), fc.Paths(), fc.maxTemp, precision,
                             fanSpeedHistory.history, temperatureHistory.history) == goal
      decreases |fc.dev.State().Avail(fc.fanSensor)|
    {
      var fanSpeed := fc.ReadFanSpeed();
      if fanSpeed.Err? {
        return Err(fanSpeed.error);
      }
      fanSpeedHistory.Push(fanSpeed.value);
      var temperature := fc.ReadTemperature();
      if temperature.Err? {
        return Err(temperature.error);
      }
      temperatureHistory.Push(temperature.value);

      if temperature.value >= fc.maxTemp {
        return Err(TemperatureTooHigh);
      }
      if fanSpeed.value == 0 {
        return Ok(Stopped);
      }
      var fanRange := fanSpeedHistory.RangeRelative();
      if Below(fanRange, precision) && Below(fanRange, precision) {
        var meanFanSpeed := fanSpeedHistory.Mean();
        var meanTemperature := temperatureHistory.Mean();
        return Ok(Settled(meanFanSpeed, meanTemperature));
      }
    }
  }

  method FindMinStopMinSpeedMinTemp(fc: FanController, samples: nat, precision: real)
    returns (o: Outcome)
    requires samples > 0
    modifies fc, fc.dev
    ensures Calib(o, fc.Parameters(), fc.dev.State())
            == DownRun(old(fc.dev.State()), fc.Paths(), old(fc.Parameters()), samples, precision)
  {
    ghost var goal := DownRun(fc.dev.State(), fc.Paths(), fc.Parameters(), samples, precision);
    ghost var p := fc.Parameters();
    var values: seq<(int, int)> := [];
    var pwm, minPwm := fc.maxPwm, fc.minPwm;

    // The `ok` flag ends the sweep after a stop; here the stop returns.
    while pwm > minPwm
      invariant fc.Parameters() == p && minPwm == p.minPwm
      invariant SweepDown(fc.dev.State(), fc.Paths(), p, samples, precision, pwm, values) == goal
      decreases pwm - minPwm
    {
      var finished;
      finished, o, values := SweepLevel(fc, pwm, samples, precision, values);
      if finished {
        return;
      }
      pwm := pwm - 1;
    }

    o := NoStopDetected(fc);
  }

  /** One pass of the downward sweep's outer loop, at level `pwm`. */
  method SweepLevel(fc: FanController, pwm: int, samples: nat, precision: real, values: seq<(int, int)>)
    returns (finished: bool, o: Outcome, values': seq<(int, int)>)
    requires samples > 0 && pwm > fc.minPwm
    modifies fc, fc.dev
    ensures SweepDown(old(fc.dev.State()), fc.Paths(), old(fc.Parameters()), samples, precision, pwm, values)
            == if finished then Calib(o, fc.Parameters(), fc.dev.State())
               else SweepDown(fc.dev.State(), fc.Paths(), old(fc.Parameters()), samples, precision, pwm - 1, values')
    ensures !finished ==> fc.Parameters() == old(fc.Parameters())
  {
    var observed := Level(fc, pwm, samples, precision);
    if observed.Err? {
      return true, Fail(observed.error), values;
    }
    match observed.value {
      case Stopped =>
        o := RecordStop(fc, pwm, values);
        return true, o, values;
      case Settled(meanFanSpeed, meanTemperature) =>
        return false, Pass, values + [(meanFanSpeed, meanTemperature)];
    }
  }

  /** The downward sweep's handling of a stopped fan at level `pwm`. */
  method RecordStop(fc: FanController, pwm: int, values: seq<(int, int)>) returns (o: Outcome)
    modifies fc
    ensures (o, fc.Parameters()) == StopAt(old(fc.Parameters()), pwm, values)
  {
    fc.SetMinStop(pwm + 1);
    if values == [] {
      return Fail(NoSettledPoint);
    }
    fc.SetMinSpeed(Last(values).0);
    fc.SetMinTemp(Last(values).1);
    o := Pass;
  }

  /** The end of the downward sweep when no level stopped the fan. */
  method NoStopDetected(fc: FanController) returns (o: Outcome)
    modifies fc, fc.dev
    ensures Calib(o, fc.Parameters(), fc.dev.State())
            == Fallback(old(fc.dev.State()), fc.Paths(), old(fc.Parameters()))
  {
    fc.SetMinStop(fc.minPwm + 1);
    var fanSpeed := fc.ReadFanSpeed();
    if fanSpeed.Err? {
      return Fail(fanSpeed.error);
    }
    fc.SetMinSpeed(fanSpeed.value);
    var temperature := fc.ReadTemperature();
    if temperature.Err? {
      return Fail(temperature.error);
    }
    fc.SetMinTemp(temperature.value);
    o := Pass;
  }

  /** The validation loop of the upward sweep: up to `samples` fan-speed reads,
      failing at the first 0. */
  method ConfirmStart(fc: FanController, samples: int) returns (r: Result<bool>)
    modifies fc.dev
    ensures Run(r, fc.dev.State()) == Confirm(old(fc.dev.State()), fc.fanSensor, samples)
  {
    ghost var goal := Confirm(fc.dev.State(), fc.fanSensor, samples);
    var i := 0;
    while i < samples
      invariant Confirm(fc.dev.State(), fc.fanSensor, samples - i) == goal
      decreases samples - i
    {
      var fanSpeed := fc.ReadFanSpeed();
      if fanSpeed.Err? {
        return Err(fanSpeed.error);
      }
      if fanSpeed.value == 0 {
        return Ok(false);
      }
      i := i + 1;
    }
    r := Ok(true);
  }

  method FindMinStart(fc: FanController, samples: int) returns (o: Outcome)
    modifies fc, fc.dev
    ensures Calib(o, fc.Parameters(), fc.dev.State())
            == UpRun(old(fc.dev.State()), fc.Paths(), old(fc.Parameters()), samples)
  {
    ghost var goal := UpRun(fc.dev.State(), fc.Paths(), fc.Parameters(), samples);
    o := fc.StopFan();
    if o.Fail? {
      return;
    }

    var pwm := fc.minStop;
    while pwm < fc.maxPwm
      invariant Search(fc.dev.State(), fc.Paths(), fc.Parameters(), samples, pwm) == goal
      decreases fc.maxPwm - pwm
    {
      var started;
      o, started := TryLevel(fc, samples, pwm);
      if o.Fail? {
        return;
      }
      if started {
        fc.SetMinStart(pwm);
        return Pass;
      }
      pwm := pwm + 1;
    }

    o := Fail(NoFanStartDetected);
  }

  /** One pass of the upward sweep's loop: try candidate `pwm`, and if the fan
      turns, fall back to `min_stop` and check that it keeps turning. */
  method TryLevel(fc: FanController, samples: int, pwm: int) returns (o: Outcome, started: bool)
    modifies fc.dev
    ensures (if o.Fail? then Aborted(o.error, fc.dev.State())
             else if started then Started(fc.dev.State()) else Missed(fc.dev.State()))
            == TryCandidate(old(fc.dev.State()), fc.Paths(), fc.Parameters(), samples, pwm)
  {
    started := false;
    o := fc.SetFanPwm(pwm);
    if o.Fail? {
      return;
    }
    var temperature := fc.ReadTemperature();
    if temperature.Err? {
      return Fail(temperature.error), false;
    }
    if temperature.value >= fc.maxTemp {
      return Fail(TemperatureTooHigh), false;
    }

    var fanSpeed := fc.ReadFanSpeed();
    if fanSpeed.Err? {
      return Fail(fanSpeed.error), false;
    }
    if fanSpeed.value != 0 {
      o := fc.SetFanPwm(fc.minStop);
      if o.Fail? {
        return;
      }
      var ok := ConfirmStart(fc, samples);
      if ok.Err? {
        return Fail(ok.error), false;
      }
      started := ok.value;
    }
  }

  method Calibrate(fc: FanController, samples: nat, precision: real) returns (o: Outcome)
    requires samples > 0
    modifies fc, fc.dev
    ensures Calib(o, fc.Parameters(), fc.dev.State())
            == CalibrateRun(old(fc.dev.State()), fc.Paths(), old(fc.Parameters()), samples, precision)
  {
    o := FindMinStopMinSpeedMinTemp(fc, samples, precision);
    if o.Fail? {
      return;
    }
    o := FindMinStart(fc, samples);
  }

  // ---------------------------------------------------------------------------
  // What the sweeps promise

  /** Every read of `path` at positions `[from, to)` of `log` gave a value below `bound`. */
  predicate ReadsBelow(log: seq<Access>, from: int, to: int, path: string, bound: int) {
    forall i :: from <= i < to && 0 <= i < |log| && log[i].path == path ==> log[i].value < bound
  }

  /** No read of `path` at positions `[from, to)` of `log` gave 0. */
  predicate NeverZero(log: seq<Access>, from: int, to: int, path: string) {
    forall i :: from <= i < to && 0 <= i < |log| && log[i].path == path ==> log[i].value != 0
  }

  /** From position `from` on, `log` writes `top, top - 1, top - 2, ...` to `path`. */
  predicate IsDescent(log: seq<Access>, from: int, path: string, top: int) {
    forall i :: from <= i < |log| && 0 <= i ==> log[i] == Access(path, top - (i - from))
  }

  /** The entry before the last. */
  function Penultimate<T>(s: seq<T>): T
    requires |s| > 1
  {
    s[|s| - 2]
  }

  /** A log that grew keeps its old entries. */
  lemma Grown<T>(a: seq<T>, b: seq<T>)
    requires a <= b
    ensures forall i :: 0 <= i < |a| ==> a[i] == b[i]
  {
  }

  lemma InSuffix<T>(s: seq<T>, from: nat, mid: nat, x: T)
    requires from <= mid <= |s| && x in s[mid..]
    ensures x in s[from..]
  {
    var j :| 0 <= j < |s[mid..]| && s[mid..][j] == x;
    assert s[from..][j + (mid - from)] == x;
  }

  /** An entry past `from` stays past `from` when the log grows. */
  lemma StillIn<T>(a: seq<T>, b: seq<T>, from: nat, x: T)
    requires a <= b && from <= |a| && x in a[from..]
    ensures x in b[from..]
  {
    var j :| 0 <= j < |a[from..]| && a[from..][j] == x;
    assert b[from..][j] == x;
  }

  /** One pass writes nothing.  Ending otherwise than on a read failure, or going
      on, it has read one fan speed and then one temperature: a temperature of at
      least `max_temp` ends it with "Temperature too high!"; below that, a fan speed
      of 0 ends it with a stop, and only a nonzero one lets it settle or go on.
      A read failure reads at most the fan speed. */
  lemma PollOnceEffects(e: Env, ports: Ports, maxTemp: int, precision: real,
                        speeds: seq<int>, temps: seq<int>)
    requires speeds != [] && temps != []
    requires ports.fanSensor != ports.tempSensor
    ensures var r := PollOnce(e, ports, maxTemp, precision, speeds, temps);
      r.Continue? ==>
        && r.next.written == e.written && r.next.writable == e.writable
        && e.Avail(ports.fanSensor) != [] && e.Avail(ports.tempSensor) != []
        && e.Avail(ports.fanSensor)[0] != 0 && e.Avail(ports.tempSensor)[0] < maxTemp
        && r.next.seen == e.seen + [Access(ports.fanSensor, e.Avail(ports.fanSensor)[0]),
                                    Access(ports.tempSensor, e.Avail(ports.tempSensor)[0])]
    ensures var r := PollOnce(e, ports, maxTemp, precision, speeds, temps);
      r.Ended? ==> r.run.env.written == e.written && r.run.env.writable == e.writable
    ensures var r := PollOnce(e, ports, maxTemp, precision, speeds, temps);
      r.Ended? && (r.run.result.Ok? || r.run.result == Err(TemperatureTooHigh)) ==>
        && e.Avail(ports.fanSensor) != [] && e.Avail(ports.tempSensor) != []
        && r.run.env.seen == e.seen + [Access(ports.fanSensor, e.Avail(ports.fanSensor)[0]),
                                       Access(ports.tempSensor, e.Avail(ports.tempSensor)[0])]
    ensures var r := PollOnce(e, ports, maxTemp, precision, speeds, temps);
      r.Ended? && r.run.result == Err(TemperatureTooHigh) ==> e.Avail(ports.tempSensor)[0] >= maxTemp
    ensures var r := PollOnce(e, ports, maxTemp, precision, speeds, temps);
      r.Ended? && r.run.result == Ok(Stopped) ==>
        e.Avail(ports.tempSensor)[0] < maxTemp && e.Avail(ports.fanSensor)[0] == 0
    ensures var r := PollOnce(e, ports, maxTemp, precision, speeds, temps);
      r.Ended? && r.run.result.Ok? && r.run.result.value.Settled? ==>
        e.Avail(ports.tempSensor)[0] < maxTemp && e.Avail(ports.fanSensor)[0] != 0
    ensures var r := PollOnce(e, ports, maxTemp, precision, speeds, temps);
      r.Ended? && r.run.result.Err? && r.run.result != Err(TemperatureTooHigh) ==>
        && r.run.result.error.ReadFailed?
        && (|| r.run.env.seen == e.seen
            || (e.Avail(ports.fanSensor) != [] &&
                r.run.env.seen == e.seen + [Access(ports.fanSensor, e.Avail(ports.fanSensor)[0])]))
  {
  }

  /** The wait at one level writes nothing; it only reads. */
  lemma {:induction false} ObserveFrame(e: Env, ports: Ports, maxTemp: int, precision: real,
                                        speeds: seq<int>, temps: seq<int>)
    requires speeds != [] && temps != []
    requires ports.fanSensor != ports.tempSensor
    ensures var r := ObserveLevel(e, ports, maxTemp, precision, speeds, temps);
      r.env.written == e.written && r.env.writable == e.writable && e.seen <= r.env.seen
    decreases |e.Avail(ports.fanSensor)|
  {
    var step := PollOnce(e, ports, maxTemp, precision, speeds, temps);
    PollOnceEffects(e, ports, maxTemp, precision, speeds, temps);
    if step.Continue? {
      ObserveFrame(step.next, ports, maxTemp, precision, step.speeds, step.temps);
    }
  }

  /** Every temperature the wait reads is below `max_temp`, unless it ends with
      "Temperature too high!" ... */
  lemma {:induction false} ObserveCool(e: Env, ports: Ports, maxTemp: int, precision: real,
                                       speeds: seq<int>, temps: seq<int>)
    requires speeds != [] && temps != []
    requires ports.fanSensor != ports.tempSensor
    ensures var r := ObserveLevel(e, ports, maxTemp, precision, speeds, temps);
      r.result != Err(TemperatureTooHigh) ==>
        ReadsBelow(r.env.seen, |e.seen|, |r.env.seen|, ports.tempSensor, maxTemp)
    decreases |e.Avail(ports.fanSensor)|
  {
    var step := PollOnce(e, ports, maxTemp, precision, speeds, temps);
    PollOnceEffects(e, ports, maxTemp, precision, speeds, temps);
    if step.Ended? {
      assert ObserveLevel(e, ports, maxTemp, precision, speeds, temps) == step.run;
    } else {
      var r := ObserveLevel(step.next, ports, maxTemp, precision, step.speeds, step.temps);
      assert ObserveLevel(e, ports, maxTemp, precision, speeds, temps) == r;
      ObserveCool(step.next, ports, maxTemp, precision, step.speeds, step.temps);
      ObserveFrame(step.next, ports, maxTemp, precision, step.speeds, step.temps);
      Grown(step.next.seen, r.env.seen);
    }
  }

  /** ... and in that case it ends right after reading one that is not ... */
  lemma {:induction false} ObserveTooHot(e: Env, ports: Ports, maxTemp: int, precision: real,
                                         speeds: seq<int>, temps: seq<int>)
    requires speeds != [] && temps != []
    requires ports.fanSensor != ports.tempSensor
    ensures var r := ObserveLevel(e, ports, maxTemp, precision, speeds, temps);
      r.result == Err(TemperatureTooHigh) ==>
        && |e.seen| < |r.env.seen|
        && Last(r.env.seen).path == ports.tempSensor && Last(r.env.seen).value >= maxTemp
    decreases |e.Avail(ports.fanSensor)|
  {
    var step := PollOnce(e, ports, maxTemp, precision, speeds, temps);
    PollOnceEffects(e, ports, maxTemp, precision, speeds, temps);
    if step.Ended? {
      assert ObserveLevel(e, ports, maxTemp, precision, speeds, temps) == step.run;
    } else {
      var r := ObserveLevel(step.next, ports, maxTemp, precision, step.speeds, step.temps);
      assert ObserveLevel(e, ports, maxTemp, precision, speeds, temps) == r;
      ObserveTooHot(step.next, ports, maxTemp, precision, step.speeds, step.temps);
    }
  }

  /** ... the only one it read. */
  lemma {:induction false} ObserveHotOnce(e: Env, ports: Ports, maxTemp: int, precision: real,
                                          speeds: seq<int>, temps: seq<int>)
    requires speeds != [] && temps != []
    requires ports.fanSensor != ports.tempSensor
    ensures var r := ObserveLevel(e, ports, maxTemp, precision, speeds, temps);
      r.result == Err(TemperatureTooHigh) ==>
        ReadsBelow(r.env.seen, |e.seen|, |r.env.seen| - 1, ports.tempSensor, maxTemp)
    decreases |e.Avail(ports.fanSensor)|
  {
    var step := PollOnce(e, ports, maxTemp, precision, speeds, temps);
    PollOnceEffects(e, ports, maxTemp, precision, speeds, temps);
    if step.Ended? {
      assert ObserveLevel(e, ports, maxTemp, precision, speeds, temps) == step.run;
    } else {
      var r := ObserveLevel(step.next, ports, maxTemp, precision, step.speeds, step.temps);
      assert ObserveLevel(e, ports, maxTemp, precision, speeds, temps) == r;
      ObserveHotOnce(step.next, ports, maxTemp, precision, step.speeds, step.temps);
      ObserveFrame(step.next, ports, maxTemp, precision, step.speeds, step.temps);
      Grown(step.next.seen, r.env.seen);
    }
  }

  /** The wait reports a stop only right after a fan-speed read of 0, which the
      temperature read of that pass follows. */
  lemma {:induction false} ObserveStopped(e: Env, ports: Ports, maxTemp: int, precision: real,
                                          speeds: seq<int>, temps: seq<int>)
    requires speeds != [] && temps != []
    requires ports.fanSensor != ports.tempSensor
    ensures var r := ObserveLevel(e, ports, maxTemp, precision, speeds, temps);
      r.result == Ok(Stopped) ==>
        |e.seen| + 2 <= |r.env.seen| && Penultimate(r.env.seen) == Access(ports.fanSensor, 0)
    decreases |e.Avail(ports.fanSensor)|
  {
    var step := PollOnce(e, ports, maxTemp, precision, speeds, temps);
    PollOnceEffects(e, ports, maxTemp, precision, speeds, temps);
    if step.Ended? {
      assert ObserveLevel(e, ports, maxTemp, precision, speeds, temps) == step.run;
    } else {
      var r := ObserveLevel(step.next, ports, maxTemp, precision, step.speeds, step.temps);
      assert ObserveLevel(e, ports, maxTemp, precision, speeds, temps) == r;
      ObserveStopped(step.next, ports, maxTemp, precision, step.speeds, step.temps);
    }
  }

  /** ... and that 0 is the first the wait read. */
  lemma {:induction false} ObserveFirstZero(e: Env, ports: Ports, maxTemp: int, precision: real,
                                            speeds: seq<int>, temps: seq<int>)
    requires speeds != [] && temps != []
    requires ports.fanSensor != ports.tempSensor
    ensures var r := ObserveLevel(e, ports, maxTemp, precision, speeds, temps);
      r.result == Ok(Stopped) ==> NeverZero(r.env.seen, |e.seen|, |r.env.seen| - 2, ports.fanSensor)
    decreases |e.Avail(ports.fanSensor)|
  {
    var step := PollOnce(e, ports, maxTemp, precision, speeds, temps);
    PollOnceEffects(e, ports, maxTemp, precision, speeds, temps);
    if step.Ended? {
      assert ObserveLevel(e, ports, maxTemp, precision, speeds, temps) == step.run;
    } else {
      var r := ObserveLevel(step.next, ports, maxTemp, precision, step.speeds, step.temps);
      assert ObserveLevel(e, ports, maxTemp, precision, speeds, temps) == r;
      ObserveFirstZero(step.next, ports, maxTemp, precision, step.speeds, step.temps);
      ObserveFrame(step.next, ports, maxTemp, precision, step.speeds, step.temps);
      Grown(step.next.seen, r.env.seen);
    }
  }

  /** The wait reports a settled level only if no fan-speed read was 0. */
  lemma {:induction false} ObserveSettled(e: Env, ports: Ports, maxTemp: int, precision: real,
                                          speeds: seq<int>, temps: seq<int>)
    requires speeds != [] && temps != []
    requires ports.fanSensor != ports.tempSensor
    ensures var r := ObserveLevel(e, ports, maxTemp, precision, speeds, temps);
      r.result.Ok? && r.result.value.Settled? ==>
        NeverZero(r.env.seen, |e.seen|, |r.env.seen|, ports.fanSensor)
    decreases |e.Avail(ports.fanSensor)|
  {
    var step := PollOnce(e, ports, maxTemp, precision, speeds, temps);
    PollOnceEffects(e, ports, maxTemp, precision, speeds, temps);
    if step.Ended? {
      assert ObserveLevel(e, ports, maxTemp, precision, speeds, temps) == step.run;
    } else {
      var r := ObserveLevel(step.next, ports, maxTemp, precision, step.speeds, step.temps);
      assert ObserveLevel(e, ports, maxTemp, precision, speeds, temps) == r;
      ObserveSettled(step.next, ports, maxTemp, precision, step.speeds, step.temps);
      ObserveFrame(step.next, ports, maxTemp, precision, step.speeds, step.temps);
      Grown(step.next.seen, r.env.seen);
    }
  }

  /** The wait at one level fails only on a read or on an over-temperature. */
  lemma {:induction false} ObserveErrors(e: Env, ports: Ports, maxTemp: int, precision: real,
                                         speeds: seq<int>, temps: seq<int>)
    requires speeds != [] && temps != []
    ensures var r := ObserveLevel(e, ports, maxTemp, precision, speeds, temps);
      r.result.Err? ==> r.result.error.ReadFailed? || r.result.error == TemperatureTooHigh
    decreases |e.Avail(ports.fanSensor)|
  {
    var step := PollOnce(e, ports, maxTemp, precision, speeds, temps);
    if step.Ended? {
      assert ObserveLevel(e, ports, maxTemp, precision, speeds, temps) == step.run;
    } else {
      assert ObserveLevel(e, ports, maxTemp, precision, speeds, temps)
          == ObserveLevel(step.next, ports, maxTemp, precision, step.speeds, step.temps);
      ObserveErrors(step.next, ports, maxTemp, precision, step.speeds, step.temps);
    }
  }

  /** The temperature window plays no part in the decision: two waits that differ
      only in it read the same values and end the same way, with the same mean fan
      speed; only the reported mean temperature can differ. */
  lemma {:induction false} TemperatureWindowIgnored(e: Env, ports: Ports, maxTemp: int, precision: real,
                                                    speeds: seq<int>, temps: seq<int>, others: seq<int>)
    requires speeds != [] && temps != [] && others != []
    ensures var r1 := ObserveLevel(e, ports, maxTemp, precision, speeds, temps);
      var r2 := ObserveLevel(e, ports, maxTemp, precision, speeds, others);
      && r1.env == r2.env
      && (r1.result.Err? <==> r2.result.Err?)
      && (r1.result.Err? ==> r1.result == r2.result)
      && (r1.result.Ok? ==> (r1.result.value.Stopped? <==> r2.result.value.Stopped?))
      && (r1.result.Ok? && r1.result.value.Settled? ==> r1.result.value.speed == r2.result.value.speed)
    decreases |e.Avail(ports.fanSensor)|
  {
    var step := PollOnce(e, ports, maxTemp, precision, speeds, temps);
    if step.Ended? {
      assert ObserveLevel(e, ports, maxTemp, precision, speeds, temps) == step.run;
    } else {
      var f := Read(e, ports.fanSensor);
      var t := Read(f.env, ports.tempSensor);
      TemperatureWindowIgnored(step.next, ports, maxTemp, precision, step.speeds,
                               temps[1..] + [t.result.value], others[1..] + [t.result.value]);
    }
  }

  /** One level of the downward sweep writes `pwm` to the controller and nothing
      else, and fails at once if it cannot. */
  lemma LevelWrites(e: Env, ports: Ports, maxTemp: int, samples: nat, precision: real, pwm: int)
    requires samples > 0
    requires ports.fanSensor != ports.tempSensor
    ensures var o := LevelRun(e, ports, maxTemp, samples, precision, pwm);
      && o.env.written == (if ports.controller in e.writable then e.written + [Access(ports.controller, pwm)]
                           else e.written)
      && (ports.controller !in e.writable ==> o.result == Err(WriteFailed(ports.controller, pwm)))
      && o.env.writable == e.writable && e.seen <= o.env.seen
  {
    var w := WriteTo(e, ports.controller, pwm);
    if w.outcome.Pass? {
      ObserveFrame(w.env, ports, maxTemp, precision, Zeros(samples), Zeros(samples));
    }
  }

  /** The reads of one level are those of its wait. */
  lemma LevelReads(e: Env, ports: Ports, maxTemp: int, samples: nat, precision: real, pwm: int)
    requires samples > 0
    requires ports.fanSensor != ports.tempSensor
    ensures var o := LevelRun(e, ports, maxTemp, samples, precision, pwm);
      var log, n, m := o.env.seen, |e.seen|, |o.env.seen|;
      && (o.result != Err(TemperatureTooHigh) ==> ReadsBelow(log, n, m, ports.tempSensor, maxTemp))
      && (o.result == Err(TemperatureTooHigh) ==>
            && n < m && ReadsBelow(log, n, m - 1, ports.tempSensor, maxTemp)
            && Last(log).path == ports.tempSensor && Last(log).value >= maxTemp)
      && (o.result == Ok(Stopped) ==> n + 2 <= m && Penultimate(log) == Access(ports.fanSensor, 0))
      && e.seen <= o.env.seen
  {
    var w := WriteTo(e, ports.controller, pwm);
    if w.outcome.Pass? {
      ObserveFrame(w.env, ports, maxTemp, precision, Zeros(samples), Zeros(samples));
      ObserveCool(w.env, ports, maxTemp, precision, Zeros(samples), Zeros(samples));
      ObserveTooHot(w.env, ports, maxTemp, precision, Zeros(samples), Zeros(samples));
      ObserveHotOnce(w.env, ports, maxTemp, precision, Zeros(samples), Zeros(samples));
      ObserveStopped(w.env, ports, maxTemp, precision, Zeros(samples), Zeros(samples));
    }
  }

  /** The fan-speed reads of one level: none gave 0 if it settled, and only the
      one that ends it gave 0 if it stopped; it fails only on the write, on a read
      or on an over-temperature. */
  lemma LevelZeros(e: Env, ports: Ports, maxTemp: int, samples: nat, precision: real, pwm: int)
    requires samples > 0
    requires ports.fanSensor != ports.tempSensor
    ensures var o := LevelRun(e, ports, maxTemp, samples, precision, pwm);
      var log, n, m := o.env.seen, |e.seen|, |o.env.seen|;
      && e.seen <= o.env.seen
      && (o.result.Ok? && o.result.value.Settled? ==> NeverZero(log, n, m, ports.fanSensor))
      && (o.result == Ok(Stopped) ==> n + 2 <= m && NeverZero(log, n, m - 2, ports.fanSensor))
      && (o.result.Err? ==>
            o.result.error.ReadFailed? || o.result.error.WriteFailed? || o.result.error == TemperatureTooHigh)
  {
    var w := WriteTo(e, ports.controller, pwm);
    if w.outcome.Pass? {
      ObserveFrame(w.env, ports, maxTemp, precision, Zeros(samples), Zeros(samples));
      ObserveSettled(w.env, ports, maxTemp, precision, Zeros(samples), Zeros(samples));
      ObserveFirstZero(w.env, ports, maxTemp, precision, Zeros(samples), Zeros(samples));
      ObserveErrors(w.env, ports, maxTemp, precision, Zeros(samples), Zeros(samples));
      ObserveStopped(w.env, ports, maxTemp, precision, Zeros(samples), Zeros(samples));
    }
  }

  /** With no stop seen, `min_stop` becomes `min_pwm + 1`, nothing is written, and
      the only failures are read failures. */
  lemma FallbackWrites(e: Env, ports: Ports, p: Params)
    ensures var r := Fallback(e, ports, p);
      && r.env.written == e.written
      && r.params == p.(minStop := p.minPwm + 1, minSpeed := r.params.minSpeed, minTemp := r.params.minTemp)
      && (r.outcome.Fail? ==> r.outcome.error.ReadFailed?)
  {
  }

  /** On success `min_speed` and `min_temp` are the single fan-speed and
      temperature readings taken then, the temperature being the one reading not
      checked against `max_temp`. */
  lemma FallbackReads(e: Env, ports: Ports, p: Params)
    requires ports.fanSensor != ports.tempSensor
    ensures var r := Fallback(e, ports, p);
      && e.seen <= r.env.seen
      && ReadsBelow(r.env.seen, |e.seen|, |r.env.seen| - 1, ports.tempSensor, p.maxTemp)
      && (r.outcome.Pass? ==>
            && |r.env.seen| == |e.seen| + 2
            && r.env.seen[|e.seen|] == Access(ports.fanSensor, r.params.minSpeed)
            && r.env.seen[|e.seen| + 1] == Access(ports.tempSensor, r.params.minTemp))
  {
  }

  /** One level writes `pwm` to the controller and nothing else; going on
      means it was written. */
  lemma SweepStepWrites(e: Env, ports: Ports, p: Params, samples: nat,
                        precision: real, pwm: int, values: seq<(int, int)>)
    requires samples > 0
    requires ports.fanSensor != ports.tempSensor
    ensures var s := SweepStep(e, ports, p, samples, precision, pwm, values);
      var after := if s.Finished? then s.calib.env else s.next;
      && (after.written == e.written || after.written == e.written + [Access(ports.controller, pwm)])
      && (s.Next? ==> after.written == e.written + [Access(ports.controller, pwm)])
      && e.seen <= after.seen
  {
    LevelWrites(e, ports, p.maxTemp, samples, precision, pwm);
  }

  /** A level that ends the sweep changes only `min_stop`, `min_speed` and
      `min_temp`, and succeeds only on a stop: `min_stop` is then `pwm + 1`, and
      `pwm` was the last level written. */
  lemma SweepStepParams(e: Env, ports: Ports, p: Params, samples: nat,
                        precision: real, pwm: int, values: seq<(int, int)>)
    requires samples > 0
    requires ports.fanSensor != ports.tempSensor
    ensures var s := SweepStep(e, ports, p, samples, precision, pwm, values);
      s.Finished? ==>
        && s.calib.params == p.(minStop := s.calib.params.minStop, minSpeed := s.calib.params.minSpeed,
                                minTemp := s.calib.params.minTemp)
        && (s.calib.outcome.Pass? ==>
              && s.calib.params.minStop == pwm + 1
              && s.calib.env.written == e.written + [Access(ports.controller, pwm)])
  {
    LevelWrites(e, ports, p.maxTemp, samples, precision, pwm);
  }

  /** The reads of one level: every temperature below `max_temp` unless it ends
      the sweep with "Temperature too high!" right after one that is not; a
      successful end follows a fan-speed read of 0. */
  lemma SweepStepReads(e: Env, ports: Ports, p: Params, samples: nat,
                       precision: real, pwm: int, values: seq<(int, int)>)
    requires samples > 0
    requires ports.fanSensor != ports.tempSensor
    ensures var s := SweepStep(e, ports, p, samples, precision, pwm, values);
      var after := if s.Finished? then s.calib.env else s.next;
      var log, n, m := after.seen, |e.seen|, |after.seen|;
      && e.seen <= after.seen
      && (s.Next? || s.calib.outcome != Fail(TemperatureTooHigh) ==>
            ReadsBelow(log, n, m, ports.tempSensor, p.maxTemp))
      && (s.Finished? && s.calib.outcome == Fail(TemperatureTooHigh) ==>
            && n < m && ReadsBelow(log, n, m - 1, ports.tempSensor, p.maxTemp)
            && Last(log).path == ports.tempSensor && Last(log).value >= p.maxTemp)
      && (s.Finished? && s.calib.outcome.Pass? ==> n + 2 <= m && Penultimate(log) == Access(ports.fanSensor, 0))
  {
    LevelReads(e, ports, p.maxTemp, samples, precision, pwm);
  }

  /** The fan-speed reads of one level of the sweep: going on means none gave 0,
      and a successful end means only the one before the last did; the empty
      list of pairs is met only by a stop with no pair recorded. */
  lemma SweepStepZeros(e: Env, ports: Ports, p: Params, samples: nat,
                       precision: real, pwm: int, values: seq<(int, int)>)
    requires samples > 0
    requires ports.fanSensor != ports.tempSensor
    ensures var s := SweepStep(e, ports, p, samples, precision, pwm, values);
      var after := if s.Finished? then s.calib.env else s.next;
      var log, n, m := after.seen, |e.seen|, |after.seen|;
      && e.seen <= after.seen
      && (s.Next? ==> s.values != [] && NeverZero(log, n, m, ports.fanSensor))
      && (s.Finished? && s.calib.outcome.Pass? ==> n + 2 <= m && NeverZero(log, n, m - 2, ports.fanSensor))
      && (s.Finished? && s.calib.outcome == Fail(NoSettledPoint) ==>
            values == [] && s.calib.params.minStop == pwm + 1)
  {
    LevelZeros(e, ports, p.maxTemp, samples, precision, pwm);
  }

  /** The downward sweep from `pwm` writes `pwm, pwm - 1, ...` to the controller and
      nothing else, never below `min_pwm`. */
  lemma {:induction false} SweepDownWrites(e: Env, ports: Ports, p: Params, samples: nat,
                                           precision: real, pwm: int, values: seq<(int, int)>)
    requires samples > 0
    requires ports.fanSensor != ports.tempSensor
    ensures var r := SweepDown(e, ports, p, samples, precision, pwm, values);
      && e.written <= r.env.written
      && IsDescent(r.env.written, |e.written|, ports.controller, pwm)
      && (|e.written| == |r.env.written| || p.minPwm <= pwm - (|r.env.written| - |e.written|))
    decreases pwm - p.minPwm
  {
    if pwm <= p.minPwm {
      assert SweepDown(e, ports, p, samples, precision, pwm, values) == Fallback(e, ports, p);
      FallbackWrites(e, ports, p);
    } else {
      var s := SweepStep(e, ports, p, samples, precision, pwm, values);
      SweepStepWrites(e, ports, p, samples, precision, pwm, values);
      if s.Finished? {
        assert SweepDown(e, ports, p, samples, precision, pwm, values) == s.calib;
      } else {
        var r := SweepDown(s.next, ports, p, samples, precision, pwm - 1, s.values);
        assert SweepDown(e, ports, p, samples, precision, pwm, values) == r;
        SweepDownWrites(s.next, ports, p, samples, precision, pwm - 1, s.values);
        Grown(s.next.written, r.env.written);
      }
    }
  }

  /** The downward sweep changes only `min_stop`, `min_speed` and `min_temp`. */
  lemma {:induction false} SweepDownKeeps(e: Env, ports: Ports, p: Params, samples: nat,
                                           precision: real, pwm: int, values: seq<(int, int)>)
    requires samples > 0
    requires ports.fanSensor != ports.tempSensor
    ensures var r := SweepDown(e, ports, p, samples, precision, pwm, values);
      r.params == p.(minStop := r.params.minStop, minSpeed := r.params.minSpeed, minTemp := r.params.minTemp)
    decreases pwm - p.minPwm
  {
    if pwm <= p.minPwm {
      assert SweepDown(e, ports, p, samples, precision, pwm, values) == Fallback(e, ports, p);
      FallbackWrites(e, ports, p);
    } else {
      var s := SweepStep(e, ports, p, samples, precision, pwm, values);
      SweepStepParams(e, ports, p, samples, precision, pwm, values);
      if s.Finished? {
        assert SweepDown(e, ports, p, samples, precision, pwm, values) == s.calib;
      } else {
        var r := SweepDown(s.next, ports, p, samples, precision, pwm - 1, s.values);
        assert SweepDown(e, ports, p, samples, precision, pwm, values) == r;
        SweepDownKeeps(s.next, ports, p, samples, precision, pwm - 1, s.values);
      }
    }
  }

  /** On success the downward sweep leaves `min_stop` in
      `(min_pwm, max(pwm, min_pwm) + 1]`. */
  lemma {:induction false} SweepDownMinStop(e: Env, ports: Ports, p: Params, samples: nat,
                                           precision: real, pwm: int, values: seq<(int, int)>)
    requires samples > 0
    requires ports.fanSensor != ports.tempSensor
    ensures var r := SweepDown(e, ports, p, samples, precision, pwm, values);
      r.outcome.Pass? ==> p.minPwm < r.params.minStop <= FanControllers.Max(pwm, p.minPwm) + 1
    decreases pwm - p.minPwm
  {
    var r0 := SweepDown(e, ports, p, samples, precision, pwm, values);
    if pwm <= p.minPwm {
      assert r0 == Fallback(e, ports, p);
      FallbackWrites(e, ports, p);
      assert r0.outcome.Pass? ==> p.minPwm < r0.params.minStop <= FanControllers.Max(pwm, p.minPwm) + 1;
    } else {
      var s := SweepStep(e, ports, p, samples, precision, pwm, values);
      SweepStepParams(e, ports, p, samples, precision, pwm, values);
      if s.Finished? {
        assert r0 == s.calib;
        assert r0.outcome.Pass? ==> p.minPwm < r0.params.minStop <= FanControllers.Max(pwm, p.minPwm) + 1;
      } else {
        assert r0 == SweepDown(s.next, ports, p, samples, precision, pwm - 1, s.values);
        SweepDownMinStop(s.next, ports, p, samples, precision, pwm - 1, s.values);
        assert r0.outcome.Pass? ==> p.minPwm < r0.params.minStop <= FanControllers.Max(pwm, p.minPwm) + 1;
      }
    }
  }

  /** A successful downward sweep leaves `min_stop` above
      `min_pwm + 1` only when it ended on a stop, whose level `min_stop - 1` was the
      last it wrote. */
  lemma {:induction false} SweepDownStopLevel(e: Env, ports: Ports, p: Params, samples: nat,
                                           precision: real, pwm: int, values: seq<(int, int)>)
    requires samples > 0
    requires ports.fanSensor != ports.tempSensor
    ensures var r := SweepDown(e, ports, p, samples, precision, pwm, values);
      r.outcome.Pass? && p.minPwm + 1 < r.params.minStop ==>
        |e.written| < |r.env.written| && Last(r.env.written) == Access(ports.controller, r.params.minStop - 1)
    decreases pwm - p.minPwm
  {
    var r0 := SweepDown(e, ports, p, samples, precision, pwm, values);
    if pwm <= p.minPwm {
      assert r0 == Fallback(e, ports, p);
      FallbackWrites(e, ports, p);
      assert r0.params.minStop == p.minPwm + 1;
    } else {
      var s := SweepStep(e, ports, p, samples, precision, pwm, values);
      SweepStepParams(e, ports, p, samples, precision, pwm, values);
      if s.Finished? {
        assert r0 == s.calib;
        assert r0.outcome.Pass? && p.minPwm + 1 < r0.params.minStop ==>
          |e.written| < |r0.env.written| && Last(r0.env.written) == Access(ports.controller, r0.params.minStop - 1);
      } else {
        assert r0 == SweepDown(s.next, ports, p, samples, precision, pwm - 1, s.values);
        SweepDownStopLevel(s.next, ports, p, samples, precision, pwm - 1, s.values);
        SweepStepWrites(e, ports, p, samples, precision, pwm, values);
        assert r0.outcome.Pass? && p.minPwm + 1 < r0.params.minStop ==>
          |e.written| < |r0.env.written| && Last(r0.env.written) == Access(ports.controller, r0.params.minStop - 1);
      }
    }
  }

  /** Every temperature the downward sweep reads is below `max_temp`, except
      possibly its very last read: the live reading taken when no stop was seen is
      not checked, nor is the one that ends the sweep with "Temperature too high!". */
  lemma {:induction false} SweepDownCool(e: Env, ports: Ports, p: Params, samples: nat,
                                         precision: real, pwm: int, values: seq<(int, int)>)
    requires samples > 0
    requires ports.fanSensor != ports.tempSensor
    ensures var r := SweepDown(e, ports, p, samples, precision, pwm, values);
      e.seen <= r.env.seen && ReadsBelow(r.env.seen, |e.seen|, |r.env.seen| - 1, ports.tempSensor, p.maxTemp)
    decreases pwm - p.minPwm
  {
    var r0 := SweepDown(e, ports, p, samples, precision, pwm, values);
    if pwm <= p.minPwm {
      assert r0 == Fallback(e, ports, p);
      FallbackReads(e, ports, p);
    } else {
      var s := SweepStep(e, ports, p, samples, precision, pwm, values);
      SweepStepReads(e, ports, p, samples, precision, pwm, values);
      if s.Finished? {
        assert r0 == s.calib;
        assert ReadsBelow(r0.env.seen, |e.seen|, |r0.env.seen| - 1, ports.tempSensor, p.maxTemp);
      } else {
        assert r0 == SweepDown(s.next, ports, p, samples, precision, pwm - 1, s.values);
        SweepDownCool(s.next, ports, p, samples, precision, pwm - 1, s.values);
        Grown(s.next.seen, r0.env.seen);
        assert ReadsBelow(r0.env.seen, |e.seen|, |r0.env.seen| - 1, ports.tempSensor, p.maxTemp);
      }
    }
  }

  /** A downward sweep that ends with "Temperature too high!" does so right after
      reading a temperature of at least `max_temp`. */
  lemma {:induction false} SweepDownTooHot(e: Env, ports: Ports, p: Params, samples: nat,
                                         precision: real, pwm: int, values: seq<(int, int)>)
    requires samples > 0
    requires ports.fanSensor != ports.tempSensor
    ensures var r := SweepDown(e, ports, p, samples, precision, pwm, values);
      r.outcome == Fail(TemperatureTooHigh) ==>
        |e.seen| < |r.env.seen| && Last(r.env.seen).path == ports.tempSensor && Last(r.env.seen).value >= p.maxTemp
    decreases pwm - p.minPwm
  {
    var r0 := SweepDown(e, ports, p, samples, precision, pwm, values);
    if pwm <= p.minPwm {
      assert r0 == Fallback(e, ports, p);
      FallbackWrites(e, ports, p);
      assert r0.outcome != Fail(TemperatureTooHigh);
    } else {
      var s := SweepStep(e, ports, p, samples, precision, pwm, values);
      SweepStepReads(e, ports, p, samples, precision, pwm, values);
      if s.Finished? {
        assert r0 == s.calib;
      } else {
        assert r0 == SweepDown(s.next, ports, p, samples, precision, pwm - 1, s.values);
        SweepDownTooHot(s.next, ports, p, samples, precision, pwm - 1, s.values);
        SweepDownCool(s.next, ports, p, samples, precision, pwm - 1, s.values);
      }
    }
  }

  /** A downward sweep that ended on a stop checked every temperature it read, and
      its second-to-last read was a fan speed of 0. */
  lemma {:induction false} SweepDownStopRead(e: Env, ports: Ports, p: Params, samples: nat,
                                         precision: real, pwm: int, values: seq<(int, int)>)
    requires samples > 0
    requires ports.fanSensor != ports.tempSensor
    ensures var r := SweepDown(e, ports, p, samples, precision, pwm, values);
      r.outcome.Pass? && p.minPwm + 1 < r.params.minStop ==>
        && ReadsBelow(r.env.seen, |e.seen|, |r.env.seen|, ports.tempSensor, p.maxTemp)
        && |e.seen| + 2 <= |r.env.seen| && Penultimate(r.env.seen) == Access(ports.fanSensor, 0)
    decreases pwm - p.minPwm
  {
    var r0 := SweepDown(e, ports, p, samples, precision, pwm, values);
    if pwm <= p.minPwm {
      assert r0 == Fallback(e, ports, p);
      FallbackWrites(e, ports, p);
      assert r0.params.minStop == p.minPwm + 1;
    } else {
      var s := SweepStep(e, ports, p, samples, precision, pwm, values);
      SweepStepReads(e, ports, p, samples, precision, pwm, values);
      if s.Finished? {
        assert r0 == s.calib;
      } else {
        assert r0 == SweepDown(s.next, ports, p, samples, precision, pwm - 1, s.values);
        SweepDownStopRead(s.next, ports, p, samples, precision, pwm - 1, s.values);
        SweepDownCool(s.next, ports, p, samples, precision, pwm - 1, s.values);
        Grown(s.next.seen, r0.env.seen);
      }
    }
  }

  /** Before the stop that ends a downward sweep, no fan-speed read gave 0: the
      sweep stops at the first level at which the fan is seen stopped. */
  lemma {:induction false} SweepDownFirstZero(e: Env, ports: Ports, p: Params, samples: nat,
                                              precision: real, pwm: int, values: seq<(int, int)>)
    requires samples > 0
    requires ports.fanSensor != ports.tempSensor
    ensures var r := SweepDown(e, ports, p, samples, precision, pwm, values);
      r.outcome.Pass? && p.minPwm + 1 < r.params.minStop ==>
        && e.seen <= r.env.seen && |e.seen| + 2 <= |r.env.seen|
        && NeverZero(r.env.seen, |e.seen|, |r.env.seen| - 2, ports.fanSensor)
    decreases pwm - p.minPwm
  {
    var r0 := SweepDown(e, ports, p, samples, precision, pwm, values);
    if pwm <= p.minPwm {
      assert r0 == Fallback(e, ports, p);
      FallbackWrites(e, ports, p);
    } else {
      var s := SweepStep(e, ports, p, samples, precision, pwm, values);
      SweepStepZeros(e, ports, p, samples, precision, pwm, values);
      if s.Finished? {
        assert r0 == s.calib;
      } else {
        assert r0 == SweepDown(s.next, ports, p, samples, precision, pwm - 1, s.values);
        SweepDownFirstZero(s.next, ports, p, samples, precision, pwm - 1, s.values);
        if r0.outcome.Pass? && p.minPwm + 1 < r0.params.minStop {
          assert s.next.seen <= r0.env.seen && |s.next.seen| + 2 <= |r0.env.seen|;
          assert NeverZero(s.next.seen, |e.seen|, |s.next.seen|, ports.fanSensor);
          NeverZeroJoin(s.next.seen, r0.env.seen, |e.seen|, |r0.env.seen| - 2, ports.fanSensor);
          assert e.seen <= s.next.seen;
        }
      }
    }
  }

  /** Two stretches of reads without a 0, one after the other, make one. */
  lemma NeverZeroJoin(short: seq<Access>, log: seq<Access>, from: int, to: int, path: string)
    requires short <= log && |short| <= to
    requires NeverZero(short, from, |short|, path) && NeverZero(log, |short|, to, path)
    ensures NeverZero(log, from, to, path)
  {
    Grown(short, log);
  }

  /** The pair the downward sweep from `pwm` settles on at `level`, if it reaches
      that level and the fan settles there. */
  function SettledAt(e: Env, ports: Ports, p: Params, samples: nat, precision: real,
                     pwm: int, level: int): Option<(int, int)>
    requires samples > 0
    decreases pwm - level
  {
    if pwm < level || pwm <= p.minPwm then None else
    var o := LevelRun(e, ports, p.maxTemp, samples, precision, pwm);
    if o.result.Err? || o.result.value.Stopped? then None
    else if pwm == level then Some((o.result.value.speed, o.result.value.temperature))
    else SettledAt(o.env, ports, p, samples, precision, pwm - 1, level)
  }

  /** A downward sweep that ends on a stop takes `min_speed` and `min_temp` from
      the level above the stop, `min_stop`: the pair settled there, or, when the
      stop is at the first level, the last pair recorded before the sweep. */
  lemma {:induction false} SweepDownSettledPair(e: Env, ports: Ports, p: Params, samples: nat,
                                                precision: real, pwm: int, values: seq<(int, int)>)
    requires samples > 0
    requires ports.fanSensor != ports.tempSensor
    ensures var r := SweepDown(e, ports, p, samples, precision, pwm, values);
      var pair := (r.params.minSpeed, r.params.minTemp);
      r.outcome.Pass? && p.minPwm + 1 < r.params.minStop ==>
        && (r.params.minStop == pwm + 1 ==> values != [] && Last(values) == pair)
        && (r.params.minStop <= pwm ==>
              SettledAt(e, ports, p, samples, precision, pwm, r.params.minStop) == Some(pair))
    decreases pwm - p.minPwm
  {
    var r0 := SweepDown(e, ports, p, samples, precision, pwm, values);
    if pwm <= p.minPwm {
      assert r0 == Fallback(e, ports, p);
      FallbackWrites(e, ports, p);
    } else {
      var s := SweepStep(e, ports, p, samples, precision, pwm, values);
      if s.Finished? {
        assert r0 == s.calib;
      } else {
        assert r0 == SweepDown(s.next, ports, p, samples, precision, pwm - 1, s.values);
        SweepDownSettledPair(s.next, ports, p, samples, precision, pwm - 1, s.values);
        SweepDownMinStop(s.next, ports, p, samples, precision, pwm - 1, s.values);
      }
    }
  }

  /** `NoSettledPoint` (the dereference of an empty `values`) happens only when the
      fan stops at the very first level of a sweep that starts with no pair. */
  lemma {:induction false} SweepDownNoSettledPoint(e: Env, ports: Ports, p: Params, samples: nat,
                                                   precision: real, pwm: int, values: seq<(int, int)>)
    requires samples > 0
    requires ports.fanSensor != ports.tempSensor
    ensures var r := SweepDown(e, ports, p, samples, precision, pwm, values);
      r.outcome == Fail(NoSettledPoint) ==> values == [] && p.minPwm < pwm && r.params.minStop == pwm + 1
    decreases pwm - p.minPwm
  {
    if pwm <= p.minPwm {
      FallbackWrites(e, ports, p);
    } else {
      var s := SweepStep(e, ports, p, samples, precision, pwm, values);
      SweepStepZeros(e, ports, p, samples, precision, pwm, values);
      if s.Next? {
        SweepDownNoSettledPoint(s.next, ports, p, samples, precision, pwm - 1, s.values);
      }
    }
  }

  /** The validation reads only the fan speed.  It confirms after `samples` nonzero
      reads, and refutes right after the first 0. */
  lemma {:induction false} ConfirmReads(e: Env, fanSensor: string, n: int)
    ensures var r := Confirm(e, fanSensor, n);
      && r.env.written == e.written && r.env.writable == e.writable && e.seen <= r.env.seen
      && (r.result.Err? ==> r.result.error.ReadFailed?)
      && (forall i :: |e.seen| <= i < |r.env.seen| ==> r.env.seen[i].path == fanSensor)
      && (r.result == Ok(true) ==>
            |r.env.seen| - |e.seen| == (if n > 0 then n else 0) &&
            NeverZero(r.env.seen, |e.seen|, |r.env.seen|, fanSensor))
      && (r.result == Ok(false) ==>
            |e.seen| < |r.env.seen| && Last(r.env.seen) == Access(fanSensor, 0))
    decreases n
  {
    if n > 0 {
      var f := Read(e, fanSensor);
      if f.result.Ok? && f.result.value != 0 {
        var r := Confirm(f.env, fanSensor, n - 1);
        ConfirmReads(f.env, fanSensor, n - 1);
        Grown(f.env.seen, r.env.seen);
      }
    }
  }

  /** The trial of one candidate writes it first; a confirmed start writes the
      candidate and then `min_stop`, and nothing else. */
  lemma TryWrites(e: Env, ports: Ports, p: Params, samples: int, pwm: int)
    requires ports.fanSensor != ports.tempSensor
    ensures var t := TryCandidate(e, ports, p, samples, pwm);
      && e.written <= t.env.written
      && (!t.Aborted? ==> ports.controller in e.writable)
      && (t.Aborted? ==> t.error.ReadFailed? || t.error.WriteFailed? || t.error == TemperatureTooHigh)
      && (ports.controller in e.writable ==>
            |e.written| < |t.env.written| && t.env.written[|e.written|] == Access(ports.controller, pwm))
      && (t.Started? ==>
            t.env.written == e.written + [Access(ports.controller, pwm), Access(ports.controller, p.minStop)])
  {
    var w := WriteTo(e, ports.controller, pwm);
    if w.outcome.Pass? {
      var tr := Read(w.env, ports.tempSensor);
      if tr.result.Ok? && tr.result.value < p.maxTemp {
        var f := Read(tr.env, ports.fanSensor);
        if f.result.Ok? && f.result.value != 0 {
          var back := WriteTo(f.env, ports.controller, p.minStop);
          if back.outcome.Pass? {
            ConfirmReads(back.env, ports.fanSensor, samples);
          }
        }
      }
    }
  }

  /** A confirmed start ends with `samples` nonzero fan-speed reads. */
  lemma TryConfirmed(e: Env, ports: Ports, p: Params, samples: int, pwm: int)
    requires ports.fanSensor != ports.tempSensor
    ensures var t := TryCandidate(e, ports, p, samples, pwm);
      t.Started? ==>
        && |t.env.seen| - |e.seen| >= samples
        && (forall i :: |t.env.seen| - samples <= i < |t.env.seen| ==>
              t.env.seen[i].path == ports.fanSensor && t.env.seen[i].value != 0)
  {
    var w := WriteTo(e, ports.controller, pwm);
    if w.outcome.Pass? {
      var tr := Read(w.env, ports.tempSensor);
      if tr.result.Ok? && tr.result.value < p.maxTemp {
        var f := Read(tr.env, ports.fanSensor);
        if f.result.Ok? && f.result.value != 0 {
          var back := WriteTo(f.env, ports.controller, p.minStop);
          if back.outcome.Pass? {
            ConfirmReads(back.env, ports.fanSensor, samples);
          }
        }
      }
    }
  }

  /** Every temperature the trial reads is below `max_temp`, unless it ends with
      "Temperature too high!" right after reading one that is not. */
  lemma TryReads(e: Env, ports: Ports, p: Params, samples: int, pwm: int)
    requires ports.fanSensor != ports.tempSensor
    ensures var t := TryCandidate(e, ports, p, samples, pwm);
      && e.seen <= t.env.seen
      && (t != Aborted(TemperatureTooHigh, t.env) ==>
            ReadsBelow(t.env.seen, |e.seen|, |t.env.seen|, ports.tempSensor, p.maxTemp))
      && (t == Aborted(TemperatureTooHigh, t.env) ==>
            && |t.env.seen| == |e.seen| + 1
            && Last(t.env.seen).path == ports.tempSensor && Last(t.env.seen).value >= p.maxTemp)
  {
    var w := WriteTo(e, ports.controller, pwm);
    if w.outcome.Pass? {
      var tr := Read(w.env, ports.tempSensor);
      if tr.result.Ok? && tr.result.value < p.maxTemp {
        var f := Read(tr.env, ports.fanSensor);
        if f.result.Ok? && f.result.value != 0 {
          var back := WriteTo(f.env, ports.controller, p.minStop);
          if back.outcome.Pass? {
            ConfirmReads(back.env, ports.fanSensor, samples);
          }
        }
      }
    }
  }

  /** The start search only appends to the device logs. */
  lemma {:induction false} SearchFrame(e: Env, ports: Ports, p: Params, samples: int, pwm: int)
    requires ports.fanSensor != ports.tempSensor
    ensures var r := Search(e, ports, p, samples, pwm);
      e.written <= r.env.written && e.seen <= r.env.seen
    decreases p.maxPwm - pwm
  {
    if pwm < p.maxPwm {
      var t := TryCandidate(e, ports, p, samples, pwm);
      TryWrites(e, ports, p, samples, pwm);
      TryReads(e, ports, p, samples, pwm);
      if t.Missed? {
        SearchFrame(t.env, ports, p, samples, pwm + 1);
      }
    }
  }

  /** The start search changes only `min_start`, and only on success, to a
      candidate in `[pwm, max_pwm)`. */
  lemma {:induction false} SearchParams(e: Env, ports: Ports, p: Params, samples: int, pwm: int)
    requires ports.fanSensor != ports.tempSensor
    ensures var r := Search(e, ports, p, samples, pwm);
      && (r.outcome.Fail? ==> r.params == p)
      && (r.outcome.Pass? ==> r.params == p.(minStart := r.params.minStart) && pwm <= r.params.minStart < p.maxPwm)
    decreases p.maxPwm - pwm
  {
    if pwm < p.maxPwm {
      var t := TryCandidate(e, ports, p, samples, pwm);
      if t.Missed? {
        SearchParams(t.env, ports, p, samples, pwm + 1);
      }
    }
  }

  /** A successful start search last wrote the candidate it settled on and then
      `min_stop`, and its last `samples` reads were nonzero fan speeds. */
  lemma {:induction false} SearchStarted(e: Env, ports: Ports, p: Params, samples: int, pwm: int)
    requires ports.fanSensor != ports.tempSensor
    ensures var r := Search(e, ports, p, samples, pwm);
      r.outcome.Pass? ==>
        && |e.written| + 2 <= |r.env.written|
        && Penultimate(r.env.written) == Access(ports.controller, r.params.minStart)
        && Last(r.env.written) == Access(ports.controller, p.minStop)
        && |r.env.seen| - |e.seen| >= samples
        && (forall i :: |r.env.seen| - samples <= i < |r.env.seen| ==>
              r.env.seen[i].path == ports.fanSensor && r.env.seen[i].value != 0)
    decreases p.maxPwm - pwm
  {
    if pwm < p.maxPwm {
      var t := TryCandidate(e, ports, p, samples, pwm);
      TryWrites(e, ports, p, samples, pwm);
      TryConfirmed(e, ports, p, samples, pwm);
      TryReads(e, ports, p, samples, pwm);
      if t.Missed? {
        SearchStarted(t.env, ports, p, samples, pwm + 1);
        SearchFrame(t.env, ports, p, samples, pwm + 1);
      }
    }
  }

  /** A start search that ends with "No fan start detected!" wrote every level of
      `[pwm, max_pwm)`. */
  lemma {:induction false} SearchTried(e: Env, ports: Ports, p: Params, samples: int, pwm: int)
    requires ports.fanSensor != ports.tempSensor
    ensures var r := Search(e, ports, p, samples, pwm);
      r.outcome == Fail(NoFanStartDetected) ==>
        && |e.written| <= |r.env.written|
        && forall k :: pwm <= k < p.maxPwm ==> Access(ports.controller, k) in r.env.written[|e.written|..]
    decreases p.maxPwm - pwm
  {
    if pwm < p.maxPwm {
      var t := TryCandidate(e, ports, p, samples, pwm);
      TryWrites(e, ports, p, samples, pwm);
      if t.Missed? {
        SearchTried(t.env, ports, p, samples, pwm + 1);
        var r := Search(t.env, ports, p, samples, pwm + 1);
        SearchFrame(t.env, ports, p, samples, pwm + 1);
        if r.outcome == Fail(NoFanStartDetected) {
          Grown(t.env.written, r.env.written);
          assert r.env.written[|e.written|..][0] == Access(ports.controller, pwm);
          forall k | pwm + 1 <= k < p.maxPwm
            ensures Access(ports.controller, k) in r.env.written[|e.written|..]
          {
            InSuffix(r.env.written, |e.written|, |t.env.written|, Access(ports.controller, k));
          }
        }
      }
    }
  }

  /** Past a missed candidate, the replay goes on from the next one. */
  lemma MissedThroughStep(e: Env, ports: Ports, p: Params, samples: int, pwm: int, level: int)
    requires pwm < level
    ensures var t := TryCandidate(e, ports, p, samples, pwm);
      t.Missed? ==>
        MissedThrough(e, ports, p, samples, pwm, level) == MissedThrough(t.env, ports, p, samples, pwm + 1, level)
  {
  }

  /** A successful start search accepted the first candidate whose trial starts
      the fan: every candidate from `pwm` up to `min_start` was tried and missed,
      and the trial of `min_start` itself started it. */
  lemma {:induction false} SearchFirst(e: Env, ports: Ports, p: Params, samples: int, pwm: int)
    requires ports.fanSensor != ports.tempSensor
    ensures var r := Search(e, ports, p, samples, pwm);
      r.outcome.Pass? ==>
        var m := MissedThrough(e, ports, p, samples, pwm, r.params.minStart);
        && m.Some?
        && TryCandidate(m.value, ports, p, samples, r.params.minStart) == Started(r.env)
    decreases p.maxPwm - pwm
  {
    if pwm < p.maxPwm {
      var t := TryCandidate(e, ports, p, samples, pwm);
      if t.Missed? {
        var r := Search(t.env, ports, p, samples, pwm + 1);
        assert Search(e, ports, p, samples, pwm) == r;
        SearchFirst(t.env, ports, p, samples, pwm + 1);
        if r.outcome.Pass? {
          SearchParams(t.env, ports, p, samples, pwm + 1);
          MissedThroughStep(e, ports, p, samples, pwm, r.params.minStart);
        }
      }
    }
  }

  /** Candidates that all missed were all written, in order, after the old log. */
  lemma {:induction false} MissedTried(e: Env, ports: Ports, p: Params, samples: int, pwm: int, level: int)
    requires ports.fanSensor != ports.tempSensor
    ensures var m := MissedThrough(e, ports, p, samples, pwm, level);
      m.Some? ==>
        && e.written <= m.value.written
        && forall k :: pwm <= k < level ==> Access(ports.controller, k) in m.value.written[|e.written|..]
    decreases level - pwm
  {
    if pwm < level {
      var t := TryCandidate(e, ports, p, samples, pwm);
      TryWrites(e, ports, p, samples, pwm);
      if t.Missed? {
        MissedTried(t.env, ports, p, samples, pwm + 1, level);
        var m := MissedThrough(t.env, ports, p, samples, pwm + 1, level);
        assert MissedThrough(e, ports, p, samples, pwm, level) == m;
        if m.Some? {
          Grown(t.env.written, m.value.written);
          assert m.value.written[|e.written|..][0] == Access(ports.controller, pwm);
          forall k | pwm + 1 <= k < level
            ensures Access(ports.controller, k) in m.value.written[|e.written|..]
          {
            InSuffix(m.value.written, |e.written|, |t.env.written|, Access(ports.controller, k));
          }
        }
      }
    }
  }

  /** A successful start search wrote every candidate below the one it accepted. */
  lemma SearchTriedBelow(e: Env, ports: Ports, p: Params, samples: int, pwm: int)
    requires ports.fanSensor != ports.tempSensor
    ensures var r := Search(e, ports, p, samples, pwm);
      r.outcome.Pass? ==>
        && |e.written| <= |r.env.written|
        && forall k :: pwm <= k < r.params.minStart ==> Access(ports.controller, k) in r.env.written[|e.written|..]
  {
    var r := Search(e, ports, p, samples, pwm);
    if r.outcome.Pass? {
      SearchFirst(e, ports, p, samples, pwm);
      var m := MissedThrough(e, ports, p, samples, pwm, r.params.minStart);
      MissedTried(e, ports, p, samples, pwm, r.params.minStart);
      TryWrites(m.value, ports, p, samples, r.params.minStart);
      forall k | pwm <= k < r.params.minStart
        ensures Access(ports.controller, k) in r.env.written[|e.written|..]
      {
        StillIn(m.value.written, r.env.written, |e.written|, Access(ports.controller, k));
      }
    }
  }

  /** The start search ends with "No fan start detected!" exactly when the trial
      of every candidate of `[pwm, max_pwm)` missed; it then leaves the device as
      those trials left it and changes no parameter. */
  lemma {:induction false} SearchExhausted(e: Env, ports: Ports, p: Params, samples: int, pwm: int)
    requires ports.fanSensor != ports.tempSensor
    ensures var r := Search(e, ports, p, samples, pwm);
      var m := MissedThrough(e, ports, p, samples, pwm, p.maxPwm);
      && (r.outcome == Fail(NoFanStartDetected) <==> m.Some?)
      && (m.Some? ==> r.env == m.value && r.params == p)
    decreases p.maxPwm - pwm
  {
    if pwm < p.maxPwm {
      var t := TryCandidate(e, ports, p, samples, pwm);
      TryWrites(e, ports, p, samples, pwm);
      if t.Missed? {
        assert Search(e, ports, p, samples, pwm) == Search(t.env, ports, p, samples, pwm + 1);
        MissedThroughStep(e, ports, p, samples, pwm, p.maxPwm);
        SearchExhausted(t.env, ports, p, samples, pwm + 1);
      }
    }
  }

  /** Every temperature the start search reads is below `max_temp`, unless it
      ends with "Temperature too high!" right after reading one that is not. */
  lemma {:induction false} SearchReads(e: Env, ports: Ports, p: Params, samples: int, pwm: int)
    requires ports.fanSensor != ports.tempSensor
    ensures var r := Search(e, ports, p, samples, pwm);
      var log, n, m := r.env.seen, |e.seen|, |r.env.seen|;
      && (r.outcome != Fail(TemperatureTooHigh) ==> ReadsBelow(log, n, m, ports.tempSensor, p.maxTemp))
      && (r.outcome == Fail(TemperatureTooHigh) ==>
            && n < m && ReadsBelow(log, n, m - 1, ports.tempSensor, p.maxTemp)
            && Last(log).path == ports.tempSensor && Last(log).value >= p.maxTemp)
    decreases p.maxPwm - pwm
  {
    if pwm < p.maxPwm {
      var t := TryCandidate(e, ports, p, samples, pwm);
      TryReads(e, ports, p, samples, pwm);
      if t.Missed? {
        SearchReads(t.env, ports, p, samples, pwm + 1);
        SearchFrame(t.env, ports, p, samples, pwm + 1);
        Grown(t.env.seen, Search(t.env, ports, p, samples, pwm + 1).env.seen);
      }
    }
  }

  /** `find_min_start` stops the fan first (its first write is 0) and changes only
      `min_start`: on success to a level in `[min_stop, max_pwm)`, after writing
      every level of `[min_stop, min_start)`.  Once the fan has stopped, it fails
      with "No fan start detected!" exactly when every candidate missed. */
  lemma UpRunEffects(e: Env, ports: Ports, p: Params, samples: int)
    requires ports.fanSensor != ports.tempSensor
    ensures var r := UpRun(e, ports, p, samples);
      && e.written <= r.env.written
      && (r.outcome.Fail? ==> r.params == p)
      && (r.outcome.Pass? ==>
            && r.params == p.(minStart := r.params.minStart)
            && p.minStop <= r.params.minStart < p.maxPwm
            && |r.env.written| > |e.written|
            && r.env.written[|e.written|] == Access(ports.controller, 0)
            && forall k :: p.minStop <= k < r.params.minStart ==>
                 Access(ports.controller, k) in r.env.written[|e.written|..])
    ensures var s := StopFanRun(e, ports);
      var r := UpRun(e, ports, p, samples);
      s.outcome.Pass? ==>
        (r.outcome == Fail(NoFanStartDetected) <==>
           MissedThrough(s.env, ports, p, samples, p.minStop, p.maxPwm).Some?)
  {
    var s := StopFanRun(e, ports);
    StopFanEffects(e, ports);
    if s.outcome.Pass? {
      SearchExhausted(s.env, ports, p, samples, p.minStop);
      var r := Search(s.env, ports, p, samples, p.minStop);
      SearchFrame(s.env, ports, p, samples, p.minStop);
      SearchParams(s.env, ports, p, samples, p.minStop);
      Grown(s.env.written, r.env.written);
      if r.outcome.Pass? {
        SearchTriedBelow(s.env, ports, p, samples, p.minStop);
        forall k | p.minStop <= k < r.params.minStart
          ensures Access(ports.controller, k) in r.env.written[|e.written|..]
        {
          InSuffix(r.env.written, |e.written|, |s.env.written|, Access(ports.controller, k));
        }
      }
    }
  }

  /** A calibration that succeeds leaves `min_pwm < min_stop <= min_start < max_pwm`:
      `min_stop`, `min_speed` and `min_temp` are those of the downward sweep,
      `min_start` comes from the upward sweep started at that `min_stop`, and no
      other parameter changes. Every level of `[min_stop, min_start)` was tried
      after the downward sweep. */
  lemma CalibrateEffects(e: Env, ports: Ports, p: Params, samples: nat, precision: real)
    requires samples > 0
    requires ports.fanSensor != ports.tempSensor
    ensures var r := CalibrateRun(e, ports, p, samples, precision);
      var down := DownRun(e, ports, p, samples, precision);
      r.outcome.Pass? ==>
        && p.minPwm < r.params.minStop <= r.params.minStart < p.maxPwm
        && r.params == down.params.(minStart := r.params.minStart)
        && r.params.(minStop := p.minStop, minSpeed := p.minSpeed, minTemp := p.minTemp,
                     minStart := p.minStart) == p
        && |down.env.written| <= |r.env.written|
        && forall k :: r.params.minStop <= k < r.params.minStart ==>
             Access(ports.controller, k) in r.env.written[|down.env.written|..]
  {
    var down := DownRun(e, ports, p, samples, precision);
    SweepDownKeeps(e, ports, p, samples, precision, p.maxPwm, []);
    SweepDownMinStop(e, ports, p, samples, precision, p.maxPwm, []);
    if down.outcome.Pass? {
      UpRunEffects(down.env, ports, down.params, samples);
    }
  }
}

=== FILE: fancontroller.dfy ===
/**
  The `fancontroller` class: the paths of one fan's device files, its envelope
  parameters, and the small device procedures built on reading and writing them.

  Each procedure that touches the device is specified by a function from the
  device state before to the outcome and the device state after (`StartFanRun`,
  `StopFanRun`, ...); the methods of `FanController` do what the C++ methods do, step
  by step, and are proved to agree with those functions.  The properties the
  C++ code promises are lemmas about the functions.
 */
module FanControllers {
  import opened Sysfs

  /** The seven tunable parameters of a controller, as its getters see them. */
  datatype Params = Params(minTemp: int, maxTemp: int, minStart: int, minStop: int,
                           minSpeed: int, minPwm: int, maxPwm: int)

  /** The three device paths of a controller. */
  datatype Ports = Ports(controller: string, fanSensor: string, tempSensor: string)

  function Max(a: int, b: int): int {
    if a < b then b else a
  }

  /** `ws` is the run of writes `from, from + 1, ...` to `path`. */
  predicate IsRamp(ws: seq<Access>, path: string, from: int) {
    forall i :: 0 <= i < |ws| ==> ws[i] == Access(path, from + i)
  }

  /** Every read in `rs` is a read of `path`, and all but the last gave a value below `bound`. */
  predicate PolledBelow(rs: seq<Access>, path: string, bound: int) {
    && (forall i :: 0 <= i < |rs| ==> rs[i].path == path)
    && (forall i :: 0 <= i < |rs| - 1 ==> rs[i].value < bound)
  }

  /** Every read in `rs` is a read of `path`, and all but the last gave a nonzero value. */
  predicate PolledNonZero(rs: seq<Access>, path: string) {
    && (forall i :: 0 <= i < |rs| ==> rs[i].path == path)
    && (forall i :: 0 <= i < |rs| - 1 ==> rs[i].value != 0)
  }

  /** The name of the file that switches a PWM output to manual control. */
  function EnablerOf(controller: string): string {
    controller + "_enable"
  }

  // ---------------------------------------------------------------------------
  // Specification functions of the device procedures

  /** Construction: the three device files must open, then the enabler gets 1. */
  function OpenRun(e: Env, ports: Ports): Done {
    if ports.controller !in e.writable then Done(Fail(CouldNotOpen(PwmDevice)), e)
    else if ports.fanSensor !in e.pending then Done(Fail(CouldNotOpen(FanSensorDevice)), e)
    else if ports.tempSensor !in e.pending then Done(Fail(CouldNotOpen(TemperatureSensorDevice)), e)
    else WriteTo(e, EnablerOf(ports.controller), 1)
  }

  /** `start_fan`: write `min_start`, then step up by one while the fan is too slow. */
  function StartFanRun(e: Env, ports: Ports, p: Params): Done {
    var w := WriteTo(e, ports.controller, p.minStart);
    if w.outcome.Fail? then w
    else RampUp(w.env, ports, p.minSpeed, p.maxPwm, p.minStart)
  }

  /** The loop of `start_fan`, entered after `pwm` has been written. */
  function RampUp(e: Env, ports: Ports, minSpeed: int, maxPwm: int, pwm: int): Done
    decreases |e.Avail(ports.fanSensor)|
  {
    var s := Read(e, ports.fanSensor);
    if s.result.Err? then Done(Fail(s.result.error), s.env)
    else if s.result.value >= minSpeed then Done(Pass, s.env)
    else if pwm < maxPwm then
      var w := WriteTo(s.env, ports.controller, pwm + 1);
      if w.outcome.Fail? then w
      else RampUp(w.env, ports, minSpeed, maxPwm, pwm + 1)
    else Done(Fail(UnableToStartFan), s.env)
  }

  /** `stop_fan`: write 0, then poll the fan sensor until it reads 0. */
  function StopFanRun(e: Env, ports: Ports): Done {
    var w := WriteTo(e, ports.controller, 0);
    if w.outcome.Fail? then w
    else PollUntilStopped(w.env, ports.fanSensor)
  }

  function PollUntilStopped(e: Env, fanSensor: string): Done
    decreases |e.Avail(fanSensor)|
  {
    var s := Read(e, fanSensor);
    if s.result.Err? then Done(Fail(s.result.error), s.env)
    else if s.result.value == 0 then Done(Pass, s.env)
    else PollUntilStopped(s.env, fanSensor)
  }

  // ---------------------------------------------------------------------------
  // What the procedures promise

  /** Construction succeeds exactly when the three files open and the enabler
      accepts the write, and then its only effect is writing 1 to the enabler. */
  lemma OpenEffects(e: Env, ports: Ports)
    ensures var r := OpenRun(e, ports);
      && r.env.pending == e.pending && r.env.seen == e.seen
      && (r.outcome.Pass? <==>
            && ports.controller in e.writable && ports.fanSensor in e.pending
            && ports.tempSensor in e.pending && ports.controller + "_enable" in e.writable)
      && r.env.written == (if r.outcome.Pass? then e.written + [Access(ports.controller + "_enable", 1)]
                           else e.written)
  {
  }

  lemma {:induction false} RampUpWrites(e: Env, ports: Ports, minSpeed: int, maxPwm: int, pwm: int)
    ensures var r := RampUp(e, ports, minSpeed, maxPwm, pwm);
      && e.written <= r.env.written
      && IsRamp(r.env.written[|e.written|..], ports.controller, pwm + 1)
      && pwm + (|r.env.written| - |e.written|) <= Max(pwm, maxPwm)
      && (r.outcome == Fail(UnableToStartFan) ==>
            pwm + (|r.env.written| - |e.written|) == Max(pwm, maxPwm))
    decreases |e.Avail(ports.fanSensor)|
  {
    var s := Read(e, ports.fanSensor);
    if s.result.Ok? && s.result.value < minSpeed && pwm < maxPwm {
      var w := WriteTo(s.env, ports.controller, pwm + 1);
      if w.outcome.Pass? {
        var r := RampUp(w.env, ports, minSpeed, maxPwm, pwm + 1);
        assert RampUp(e, ports, minSpeed, maxPwm, pwm) == r;
        RampUpWrites(w.env, ports, minSpeed, maxPwm, pwm + 1);
        var tail := r.env.written[|w.env.written|..];
        assert r.env.written[|e.written|..] == [Access(ports.controller, pwm + 1)] + tail;
      }
    }
  }

  lemma {:induction false} RampUpReads(e: Env, ports: Ports, minSpeed: int, maxPwm: int, pwm: int)
    ensures var r := RampUp(e, ports, minSpeed, maxPwm, pwm);
      && e.seen <= r.env.seen
      && PolledBelow(r.env.seen[|e.seen|..], ports.fanSensor, minSpeed)
      && (r.outcome.Pass? ==> |r.env.seen| > |e.seen| && Last(r.env.seen).value >= minSpeed)
    decreases |e.Avail(ports.fanSensor)|
  {
    var s := Read(e, ports.fanSensor);
    if s.result.Ok? && s.result.value < minSpeed && pwm < maxPwm {
      var w := WriteTo(s.env, ports.controller, pwm + 1);
      if w.outcome.Pass? {
        var r := RampUp(w.env, ports, minSpeed, maxPwm, pwm + 1);
        assert RampUp(e, ports, minSpeed, maxPwm, pwm) == r;
        RampUpReads(w.env, ports, minSpeed, maxPwm, pwm + 1);
        var polled := r.env.seen[|w.env.seen|..];
        assert r.env.seen[|e.seen|..] == [Access(ports.fanSensor, s.result.value)] + polled;
      }
    }
  }

  /** `start_fan` writes `min_start, min_start + 1, ...` to the controller, never
      above `max(min_start, max_pwm)`; it returns normally only after a fan-speed
      read of at least `min_speed`, every earlier read being below it; it gives up
      with "Unable to start fan!" right after writing `max(min_start, max_pwm)`. */
  lemma StartFanEffects(e: Env, ports: Ports, p: Params)
    ensures var r := StartFanRun(e, ports, p);
      && e.written <= r.env.written
      && IsRamp(r.env.written[|e.written|..], ports.controller, p.minStart)
      && |r.env.written| - |e.written| <= Max(p.minStart, p.maxPwm) - p.minStart + 1
      && (ports.controller in e.writable <==> |r.env.written| > |e.written|)
      && (r.outcome == Fail(UnableToStartFan) ==>
            |r.env.written| > |e.written| &&
            Last(r.env.written) == Access(ports.controller, Max(p.minStart, p.maxPwm)))
      && e.seen <= r.env.seen
      && PolledBelow(r.env.seen[|e.seen|..], ports.fanSensor, p.minSpeed)
      && (r.outcome.Pass? ==>
            |r.env.written| > |e.written| &&
            |r.env.seen| > |e.seen| && Last(r.env.seen).value >= p.minSpeed)
  {
    var w := WriteTo(e, ports.controller, p.minStart);
    if w.outcome.Pass? {
      var r := RampUp(w.env, ports, p.minSpeed, p.maxPwm, p.minStart);
      RampUpWrites(w.env, ports, p.minSpeed, p.maxPwm, p.minStart);
      RampUpReads(w.env, ports, p.minSpeed, p.maxPwm, p.minStart);
      var tail := r.env.written[|w.env.written|..];
      assert r.env.written[|e.written|..] == [Access(ports.controller, p.minStart)] + tail;
    }
  }

  lemma {:induction false} PollEffects(e: Env, fanSensor: string)
    ensures var r := PollUntilStopped(e, fanSensor);
      && r.env.written == e.written
      && e.seen <= r.env.seen
      && PolledNonZero(r.env.seen[|e.seen|..], fanSensor)
      && (r.outcome.Pass? ==> |r.env.seen| > |e.seen| && Last(r.env.seen) == Access(fanSensor, 0))
      && (r.outcome.Fail? ==> r.outcome.error == ReadFailed(fanSensor) && r.env.Avail(fanSensor) == [])
    decreases |e.Avail(fanSensor)|
  {
    var s := Read(e, fanSensor);
    if s.result.Ok? && s.result.value != 0 {
      var r := PollUntilStopped(s.env, fanSensor);
      PollEffects(s.env, fanSensor);
      assert r.env.seen[|e.seen|..] == [Access(fanSensor, s.result.value)] + r.env.seen[|s.env.seen|..];
    }
  }

  /** `stop_fan` writes 0 once and nothing else, and returns normally only after a
      fan-speed read of 0, every earlier read having been nonzero. */
  lemma StopFanEffects(e: Env, ports: Ports)
    ensures var r := StopFanRun(e, ports);
      && r.env.written == (if ports.controller in e.writable then e.written + [Access(ports.controller, 0)]
                           else e.written)
      && e.seen <= r.env.seen
      && PolledNonZero(r.env.seen[|e.seen|..], ports.fanSensor)
      && (r.outcome.Pass? ==> |r.env.seen| > |e.seen| && Last(r.env.seen) == Access(ports.fanSensor, 0))
  {
    var w := WriteTo(e, ports.controller, 0);
    if w.outcome.Pass? {
      PollEffects(w.env, ports.fanSensor);
    }
  }

  // ---------------------------------------------------------------------------
  // The controller object

  class FanController {
    const dev: Device
    const controller: string
    const fanSensor: string
    const tempSensor: string
    const controllerEnabler: string

    var minTemp: int
    var maxTemp: int
    var minStart: int
    var minStop: int
    var minSpeed: int
    var minPwm: int
    var maxPwm: int

    /** The parameters, as the getters return them. */
    function Parameters(): Params
      reads this
    {
      Params(minTemp, maxTemp, minStart, minStop, minSpeed, minPwm, maxPwm)
    }

    function Paths(): Ports {
      Ports(controller, fanSensor, tempSensor)
    }

    /** The member initialisers; `Open` adds the checks and the enable write. */
    constructor Init(dev: Device, ports: Ports, p: Params)
      ensures this.dev == dev && Paths() == ports && Parameters() == p
      ensures controllerEnabler == EnablerOf(ports.controller)
    {
      this.dev := dev;
      controller, fanSensor, tempSensor := ports.controller, ports.fanSensor, ports.tempSensor;
      controllerEnabler := EnablerOf(ports.controller);
      minTemp, maxTemp, minStart, minStop := p.minTemp, p.maxTemp, p.minStart, p.minStop;
      minSpeed, minPwm, maxPwm := p.minSpeed, p.minPwm, p.maxPwm;
    }

    /** The constructor `fancontroller(...)`. */
    static method Open(dev: Device, ports: Ports, p: Params) returns (r: Result<FanController>)
      modifies dev
      ensures Done(if r.Ok? then Pass else Fail(r.error), dev.State()) == OpenRun(old(dev.State()), ports)
      ensures r.Ok? ==> && fresh(r.value) && r.value.dev == dev
                        && r.value.Paths() == ports && r.value.Parameters() == p
                        && r.value.controllerEnabler == ports.controller + "_enable"
    {
      var fc := new FanController.Init(dev, ports, p);
      if ports.controller !in dev.writable {
        return Err(CouldNotOpen(PwmDevice));
      }
      if ports.fanSensor !in dev.pending {
        return Err(CouldNotOpen(FanSensorDevice));
      }
      if ports.tempSensor !in dev.pending {
        return Err(CouldNotOpen(TemperatureSensorDevice));
      }
      var o := fc.WriteValue(fc.controllerEnabler, 1);
      r := if o.Pass? then Ok(fc) else Err(o.error);
    }

    /** The destructor: the fail-safe write, with any failure swallowed. */
    method Dispose()
      modifies dev
      ensures dev.State() == WriteTo(old(dev.State()), controller, maxPwm).env
    {
      var ignored := SetFullSpeed();
    }

    method ReadValue(path: string) returns (r: Result<int>)
      modifies dev
      ensures Run(r, dev.State()) == Read(old(dev.State()), path)
    {
      var queue := if path in dev.pending then dev.pending[path] else [];
      if queue == [] {
        r := Err(ReadFailed(path));
      } else {
        r := Ok(queue[0]);
        dev.pending := dev.pending[path := queue[1..]];
        dev.seen := dev.seen + [Access(path, queue[0])];
      }
    }

    method WriteValue(path: string, value: int) returns (o: Outcome)
      modifies dev
      ensures Done(o, dev.State()) == WriteTo(old(dev.State()), path, value)
    {
      if path in dev.writable {
        dev.written := dev.written + [Access(path, value)];
        o := Pass;
      } else {
        o := Fail(WriteFailed(path, value));
      }
    }

    method ReadTemperature() returns (r: Result<int>)
      modifies dev
      ensures Run(r, dev.State()) == Read(old(dev.State()), tempSensor)
    {
      r := ReadValue(tempSensor);
    }

    method ReadFanSpeed() returns (r: Result<int>)
      modifies dev
      ensures Run(r, dev.State()) == Read(old(dev.State()), fanSensor)
    {
      r := ReadValue(fanSensor);
    }

    method ReadFanPwm() returns (r: Result<int>)
      modifies dev
      ensures Run(r, dev.State()) == Read(old(dev.State()), controller)
    {
      r := ReadValue(controller);
    }

    method SetFanPwm(pwm: int) returns (o: Outcome)
      modifies dev
      ensures Done(o, dev.State()) == WriteTo(old(dev.State()), controller, pwm)
    {
      o := WriteValue(controller, pwm);
    }

    method SetFullSpeed() returns (o: Outcome)
      modifies dev
      ensures Done(o, dev.State()) == WriteTo(old(dev.State()), controller, maxPwm)
    {
      o := WriteValue(controller, maxPwm);
    }

    method StartFan() returns (o: Outcome)
      modifies dev
      ensures Done(o, dev.State()) == StartFanRun(old(dev.State()), Paths(), Parameters())
    {
      var pwm := minStart;
      o := SetFanPwm(pwm);
      if o.Fail? {
        return;
      }
      while true
        invariant RampUp(dev.State(), Paths(), minSpeed, maxPwm, pwm)
                  == StartFanRun(old(dev.State()), Paths(), Parameters())
        decreases |dev.State().Avail(fanSensor)|
      {
        var speed := ReadFanSpeed();
        if speed.Err? {
          return Fail(speed.error);
        }
        if speed.value >= minSpeed {
          return Pass;
        }
        if pwm < maxPwm {
          pwm := pwm + 1;
          o := SetFanPwm(pwm);
          if o.Fail? {
            return;
          }
        } else {
          return Fail(UnableToStartFan);
        }
      }
    }

    method StopFan() returns (o: Outcome)
      modifies dev
      ensures Done(o, dev.State()) == StopFanRun(old(dev.State()), Paths())
    {
      o := SetFanPwm(0);
      if o.Fail? {
        return;
      }
      while true
        invariant PollUntilStopped(dev.State(), fanSensor) == StopFanRun(old(dev.State()), Paths())
        decreases |dev.State().Avail(fanSensor)|
      {
        var speed := ReadFanSpeed();
        if speed.Err? {
          return Fail(speed.error);
        }
        if speed.value == 0 {
          return Pass;
        }
      }
    }

    method SetMinTemp(val: int)
      modifies this`minTemp
      ensures Parameters() == old(Parameters()).(minTemp := val)
    {
      minTemp := val;
    }

    method SetMaxTemp(val: int)
      modifies this`maxTemp
      ensures Parameters() == old(Parameters()).(maxTemp := val)
    {
      maxTemp := val;
    }

    method SetMinStart(val: int)
      modifies this`minStart
      ensures Parameters() == old(Parameters()).(minStart := val)
    {
      minStart := val;
    }

    method SetMinStop(val: int)
      modifies this`minStop
      ensures Parameters() == old(Parameters()).(minStop := val)
    {
      minStop := val;
    }

    method SetMinSpeed(val: int)
      modifies this`minSpeed
      ensures Parameters() == old(Parameters()).(minSpeed := val)
    {
      minSpeed := val;
    }

    method SetMinPwm(val: int)
      modifies this`minPwm
      ensures Parameters() == old(Parameters()).(minPwm := val)
    {
      minPwm := val;
    }

    method SetMaxPwm(val: int)
      modifies this`maxPwm
      ensures Parameters() == old(Parameters()).(maxPwm := val)
    {
      maxPwm := val;
    }
  }
}

=== FILE: pwm_curves.dfy ===
/**
  The PWM curves of the control loop (`pwm_computer` and its two subclasses).

  A curve keeps the five parameters it was built from and the coefficients it
  computed from them, once, at construction.  Below `min_temp` it gives `min_pwm`,
  above `max_temp` it gives `max_pwm`, and in between the value of a line or of a
  parabola, cut to an integer toward zero.  The C++ code evaluates in `long double`;
  here the evaluation is exact, over `real`.
 */
module PwmCurves {
  import opened FanControllers

  /** The polynomial of a curve: `a*t + b`, or `a*t*t + b*t + c`. */
  datatype Shape = Linear(a: real, b: real) | Quadratic(a: real, b: real, c: real)

  datatype PwmComputer = PwmComputer(minTemperature: int, maxTemperature: int,
                                     minPwm: int, minStop: int, maxPwm: int, shape: Shape)

  /** `static_cast<long>` of a floating value: the integer part, cut toward zero. */
  function Trunc(x: real): (r: int)
    ensures 0.0 <= x ==> 0 <= r && r as real <= x < r as real + 1.0
    ensures x < 0.0 ==> r <= 0 && r as real - 1.0 < x <= r as real
  {
    if x >= 0.0 then x.Floor else -((-x).Floor)
  }

  /** The `linear_pwm_computer` constructor: the line through
      `(min_temp, min_stop)` and `(max_temp, max_pwm)`.  The C++ code divides by
      `max_temp - min_temp`, so only equal temperatures are excluded; with
      `min_temp > max_temp` the curve is built but `pwm_for` never evaluates it. */
  function NewLinear(p: Params): (r: PwmComputer)
    requires p.minTemp != p.maxTemp
    ensures r.minTemperature == p.minTemp && r.maxTemperature == p.maxTemp
    ensures r.minPwm == p.minPwm && r.minStop == p.minStop && r.maxPwm == p.maxPwm
    ensures r.shape.Linear?
    ensures Value(r.shape, p.minTemp as real) == p.minStop as real
    ensures Value(r.shape, p.maxTemp as real) == p.maxPwm as real
  {
    var minT, maxT := p.minTemp as real, p.maxTemp as real;
    var stop, top := p.minStop as real, p.maxPwm as real;
    var a := (top - stop) / (maxT - minT);
    assert a * (maxT - minT) == top - stop;
    var b := (stop + top - a * (minT + maxT)) / 2.0;
    assert a * minT + b == (stop + top - a * (maxT - minT)) / 2.0;
    assert a * maxT + b == (stop + top + a * (maxT - minT)) / 2.0;
    PwmComputer(p.minTemp, p.maxTemp, p.minPwm, p.minStop, p.maxPwm, Linear(a, b))
  }

  /** The `quadratic_pwm_computer` constructor: the parabola through the same two
      points whose vertex is at `min_temp`.  As for the line, only equal
      temperatures are excluded. */
  function NewQuadratic(p: Params): (r: PwmComputer)
    requires p.minTemp != p.maxTemp
    ensures r.minTemperature == p.minTemp && r.maxTemperature == p.maxTemp
    ensures r.minPwm == p.minPwm && r.minStop == p.minStop && r.maxPwm == p.maxPwm
    ensures r.shape.Quadratic?
    ensures Value(r.shape, p.minTemp as real) == p.minStop as real
    ensures Value(r.shape, p.maxTemp as real) == p.maxPwm as real
  {
    var minT, maxT := p.minTemp as real, p.maxTemp as real;
    var stop, top := p.minStop as real, p.maxPwm as real;
    var d := maxT - minT;
    var a := (top - stop) / (d * d);
    assert a * (d * d) == top - stop;
    var b := -2.0 * minT * a;
    var c := (stop + top + a * ((minT + maxT) * (minT + maxT) - 2.0 * (maxT * maxT))) / 2.0;
    assert (minT + maxT) * (minT + maxT) - 2.0 * (maxT * maxT) == 2.0 * (minT * minT) - d * d;
    assert a * ((minT + maxT) * (minT + maxT) - 2.0 * (maxT * maxT))
        == 2.0 * (a * (minT * minT)) - a * (d * d);
    assert c == a * (minT * minT) + stop;
    assert b * minT == -2.0 * (a * (minT * minT));
    assert b * maxT == -2.0 * (a * (minT * maxT));
    assert d * d == maxT * maxT - 2.0 * (minT * maxT) + minT * minT;
    assert a * (d * d) == a * (maxT * maxT) - 2.0 * (a * (minT * maxT)) + a * (minT * minT);
    PwmComputer(p.minTemp, p.maxTemp, p.minPwm, p.minStop, p.maxPwm, Quadratic(a, b, c))
  }

  /** The polynomial at `t`, before the cast to an integer. */
  function Value(shape: Shape, t: real): real {
    match shape
    case Linear(a, b) => a * t + b
    case Quadratic(a, b, c) => a * (t * t) + b * t + c
  }

  /** `calculate`: the polynomial at `temperature`, cut toward zero. */
  function Calculate(c: PwmComputer, temperature: int): (r: int)
    ensures var v := Value(c.shape, temperature as real);
      && (0.0 <= v ==> 0 <= r && r as real <= v < r as real + 1.0)
      && (v < 0.0 ==> r <= 0 && r as real - 1.0 < v <= r as real)
  {
    Trunc(Value(c.shape, temperature as real))
  }

  /** `pwm_for`: clamped outside `[min_temp, max_temp]`, the curve inside. */
  function PwmFor(c: PwmComputer, temperature: int): (r: int)
    ensures temperature < c.minTemperature ==> r == c.minPwm
    ensures c.minTemperature <= temperature <= c.maxTemperature ==> r == Calculate(c, temperature)
    ensures c.minTemperature <= temperature && c.maxTemperature < temperature ==> r == c.maxPwm
  {
    if temperature < c.minTemperature then c.minPwm
    else if temperature > c.maxTemperature then c.maxPwm
    else Calculate(c, temperature)
  }

  /** `c` is what one of the two constructors builds from `p`. */
  ghost predicate BuiltFrom(c: PwmComputer, p: Params) {
    p.minTemp != p.maxTemp && (c == NewLinear(p) || c == NewQuadratic(p))
  }

  // ---------------------------------------------------------------------------
  // Cutting toward zero

  lemma TruncMonotone(x: real, y: real)
    requires x <= y
    ensures Trunc(x) <= Trunc(y)
  {
    if x < 0.0 && 0.0 <= y {
    } else if x < 0.0 {
      assert (-y).Floor <= (-x).Floor;
    }
  }

  lemma TruncOfInt(n: int)
    ensures Trunc(n as real) == n
  {
  }

  /** A value between two integers is cut to an integer between them. */
  lemma TruncBetween(x: real, lo: int, hi: int)
    requires lo as real <= x <= hi as real
    ensures lo <= Trunc(x) <= hi
  {
    TruncMonotone(lo as real, x);
    TruncMonotone(x, hi as real);
    TruncOfInt(lo);
    TruncOfInt(hi);
  }

  /** The cast is not a floor: a slightly negative curve value becomes 0, not -1. */
  lemma TruncIsNotFloor()
    ensures Trunc(-0.5) == 0 && (-0.5).Floor == -1
  {
  }

  // ---------------------------------------------------------------------------
  // The linear curve

  lemma {:induction false} LinearNonDecreasing(p: Params, t1: real, t2: real)
    requires p.minTemp < p.maxTemp && p.minStop <= p.maxPwm && t1 <= t2
    ensures Value(NewLinear(p).shape, t1) <= Value(NewLinear(p).shape, t2)
  {
    var minT, maxT := p.minTemp as real, p.maxTemp as real;
    var stop, top := p.minStop as real, p.maxPwm as real;
    var a := (top - stop) / (maxT - minT);
    assert 0.0 <= a;
    assert a * t2 - a * t1 == a * (t2 - t1);
    assert 0.0 <= a * (t2 - t1);
  }

  // ---------------------------------------------------------------------------
  // The quadratic curve

  /** Since `b = -2 * min_temp * a`, the parabola is `a * (t - min_temp)^2 + min_stop`. */
  lemma {:induction false} QuadraticVertexForm(p: Params, t: real)
    requires p.minTemp != p.maxTemp
    ensures var q := NewQuadratic(p).shape;
      var d := p.maxTemp as real - p.minTemp as real;
      && q.a * (d * d) == p.maxPwm as real - p.minStop as real
      && Value(q, t) == q.a * ((t - p.minTemp as real) * (t - p.minTemp as real)) + p.minStop as real
  {
    var minT, maxT := p.minTemp as real, p.maxTemp as real;
    var stop, top := p.minStop as real, p.maxPwm as real;
    var d := maxT - minT;
    var a := (top - stop) / (d * d);
    assert a * (d * d) == top - stop;
    var b := -2.0 * minT * a;
    var c := (stop + top + a * ((minT + maxT) * (minT + maxT) - 2.0 * (maxT * maxT))) / 2.0;
    assert NewQuadratic(p).shape == Quadratic(a, b, c);
    assert (minT + maxT) * (minT + maxT) - 2.0 * (maxT * maxT) == 2.0 * (minT * minT) - d * d;
    assert a * ((minT + maxT) * (minT + maxT) - 2.0 * (maxT * maxT))
        == 2.0 * (a * (minT * minT)) - a * (d * d);
    assert c == a * (minT * minT) + stop;
    assert (t - minT) * (t - minT) == t * t - 2.0 * minT * t + minT * minT;
    assert a * ((t - minT) * (t - minT)) == a * (t * t) + b * t + a * (minT * minT);
  }

  lemma {:induction false} QuadraticNonDecreasing(p: Params, t1: real, t2: real)
    requires p.minTemp < p.maxTemp && p.minStop <= p.maxPwm
    requires p.minTemp as real <= t1 <= t2
    ensures Value(NewQuadratic(p).shape, t1) <= Value(NewQuadratic(p).shape, t2)
  {
    var q := NewQuadratic(p).shape;
    var d := p.maxTemp as real - p.minTemp as real;
    QuadraticVertexForm(p, t1);
    QuadraticVertexForm(p, t2);
    assert 0.0 < d * d;
    assert 0.0 <= q.a;
    var u1, u2 := t1 - p.minTemp as real, t2 - p.minTemp as real;
    assert u1 * u1 <= u2 * u2 by {
      assert u1 * u1 <= u1 * u2;
      assert u1 * u2 <= u2 * u2;
    }
    assert q.a * (u2 * u2) - q.a * (u1 * u1) == q.a * (u2 * u2 - u1 * u1);
    assert 0.0 <= q.a * (u2 * u2 - u1 * u1);
  }

  // ---------------------------------------------------------------------------
  // Both curves

  /** Each curve meets its two anchor points exactly, even after the cast. */
  lemma CalculateAtEndpoints(c: PwmComputer, p: Params)
    requires BuiltFrom(c, p)
    ensures Calculate(c, p.minTemp) == p.minStop
    ensures Calculate(c, p.maxTemp) == p.maxPwm
  {
    TruncOfInt(p.minStop);
    TruncOfInt(p.maxPwm);
  }

  lemma ValueNonDecreasing(c: PwmComputer, p: Params, t1: real, t2: real)
    requires BuiltFrom(c, p) && p.minTemp < p.maxTemp && p.minStop <= p.maxPwm
    requires p.minTemp as real <= t1 <= t2
    ensures Value(c.shape, t1) <= Value(c.shape, t2)
  {
    if c == NewLinear(p) {
      LinearNonDecreasing(p, t1, t2);
    } else {
      QuadraticNonDecreasing(p, t1, t2);
    }
  }

  /** Between the two temperatures, the curve stays between `min_stop` and `max_pwm`. */
  lemma PwmForInRange(c: PwmComputer, p: Params, temperature: int)
    requires BuiltFrom(c, p) && p.minStop <= p.maxPwm
    requires p.minTemp <= temperature <= p.maxTemp
    ensures p.minStop <= PwmFor(c, temperature) <= p.maxPwm
  {
    var t := temperature as real;
    ValueNonDecreasing(c, p, p.minTemp as real, t);
    ValueNonDecreasing(c, p, t, p.maxTemp as real);
    TruncBetween(Value(c.shape, t), p.minStop, p.maxPwm);
  }

  /** With `min_pwm <= min_stop <= max_pwm`, a hotter reading never asks for less PWM. */
  lemma PwmForMonotone(c: PwmComputer, p: Params, t1: int, t2: int)
    requires BuiltFrom(c, p) && p.minPwm <= p.minStop <= p.maxPwm
    requires t1 <= t2
    ensures PwmFor(c, t1) <= PwmFor(c, t2)
  {
    if p.minTemp <= t1 <= p.maxTemp {
      PwmForInRange(c, p, t1);
      if t2 <= p.maxTemp {
        ValueNonDecreasing(c, p, t1 as real, t2 as real);
        TruncMonotone(Value(c.shape, t1 as real), Value(c.shape, t2 as real));
      }
    } else if t1 < p.minTemp && t2 <= p.maxTemp && p.minTemp <= t2 {
      PwmForInRange(c, p, t2);
    }
  }
}

=== FILE: regulation.dfy ===
/**
  One tick of the control loop (`update`): read the temperature, the current PWM
  value and the fan speed; compute the curve's PWM value; let it climb only
  gradually (each step one larger than the last) but fall at once; hold a
  stopped fan at 0 while the filtered value is below `min_stop`; run the start
  sequence for a stopped fan that must turn; and write the result.

  The C++ code keeps the step size in a function-local `static`; here it is the
  field `upStep` of a `Regulator`.
 */
module Regulation {
  import opened Sysfs
  import opened FanControllers
  import opened PwmCurves

  function Min(a: int, b: int): int {
    if a < b then a else b
  }

  /** The filter: a rise is limited to `up_step + 1` and grows the step; a fall
      (or no change) is applied at once and resets the step. */
  function StepLimit(computed: int, cur: int, upStep: nat): (r: (int, nat))
    ensures r.0 <= computed
    ensures computed > cur ==>
              && cur < r.0 == Min(cur + upStep + 1, computed)
              && (r.1 == 0 <==> r.0 == computed)
              && (r.1 != 0 ==> r.1 == upStep + 1)
    ensures computed <= cur ==> r == (computed, 0)
  {
    if computed > cur then
      var step := upStep + 1;
      if cur + step >= computed then (computed, 0) else (cur + step, step)
    else (computed, 0)
  }

  /** The stall guard: a stopped fan is not driven below `min_stop`; the step is
      doubled because the filtered value is not applied. */
  function StallGuard(filtered: int, upStep: nat, speed: int, minStop: int): (r: (int, nat))
    ensures speed == 0 && filtered < minStop ==> r == (0, 2 * upStep)
    ensures speed != 0 || minStop <= filtered ==> r == (filtered, upStep)
    ensures speed == 0 && r.0 != 0 ==> minStop <= r.0
  {
    if speed == 0 && filtered < minStop then (0, upStep * 2) else (filtered, upStep)
  }

  /** What one tick decides from its three readings. */
  datatype Decision = Decision(computed: int, applied: int, upStep: nat, start: bool)

  /** What a tick decides: the curve's value, the value applied after the filter
      and the stall guard, the step after them, and whether the fan is started.
      The applied value is 0 or at most the curve's; it rises by at most the grown
      step; a stopped fan gets 0 or at least `min_stop`; a fall is applied at once. */
  function Decide(curve: PwmComputer, minStop: int, temperature: int, cur: int, speed: int,
                  upStep: nat): (r: Decision)
    ensures r.computed == PwmFor(curve, temperature)
    ensures r.applied == 0 || r.applied <= r.computed
    ensures r.applied != 0 && cur < r.applied ==> r.applied <= cur + upStep + 1
    ensures r.applied != 0 && speed == 0 ==> minStop <= r.applied
    ensures r.computed <= cur && (speed != 0 || minStop <= r.computed) ==>
              r.applied == r.computed && r.upStep == 0
    ensures r.start <==> r.applied != 0 && speed == 0
  {
    var computed := PwmFor(curve, temperature);
    var (filtered, step) := StepLimit(computed, cur, upStep);
    var (applied, step') := StallGuard(filtered, step, speed, minStop);
    Decision(computed, applied, step', applied != 0 && speed == 0)
  }

  /** The outcome of one tick, the step size after it and the device state after it. */
  datatype Tick = Tick(outcome: Outcome, upStep: nat, env: Env)

  /** `update`, as a function of the device state and the step size before it. */
  function TickRun(e: Env, ports: Ports, p: Params, curve: PwmComputer, upStep: nat): Tick {
    var t := Read(e, ports.tempSensor);
    if t.result.Err? then Tick(Fail(t.result.error), upStep, t.env) else
    var c := Read(t.env, ports.controller);
    if c.result.Err? then Tick(Fail(c.result.error), upStep, c.env) else
    var s := Read(c.env, ports.fanSensor);
    if s.result.Err? then Tick(Fail(s.result.error), upStep, s.env) else
    var d := Decide(curve, p.minStop, t.result.value, c.result.value, s.result.value, upStep);
    if d.start then
      var st := StartFanRun(s.env, ports, p);
      if st.outcome.Fail? then Tick(st.outcome, d.upStep, st.env)
      else var w := WriteTo(st.env, ports.controller, d.applied); Tick(w.outcome, d.upStep, w.env)
    else
      var w := WriteTo(s.env, ports.controller, d.applied); Tick(w.outcome, d.upStep, w.env)
  }

  class Regulator {
    var upStep: nat

    constructor ()
      ensures upStep == 0
    {
      upStep := 0;
    }

    method Update(fc: FanController, compute: PwmComputer) returns (o: Outcome)
      modifies this, fc.dev
      ensures Tick(o, upStep, fc.dev.State())
              == TickRun(old(fc.dev.State()), fc.Paths(), fc.Parameters(), compute, old(upStep))
    {
      var temp := fc.ReadTemperature();
      if temp.Err? {
        return Fail(temp.error);
      }
      var curPwm := fc.ReadFanPwm();
      if curPwm.Err? {
        return Fail(curPwm.error);
      }
      var curFanSpeed := fc.ReadFanSpeed();
      if curFanSpeed.Err? {
        return Fail(curFanSpeed.error);
      }

      var computedPwm := PwmFor(compute, temp.value);
      var newPwm := Filter(computedPwm, curPwm.value, curFanSpeed.value, fc.minStop);
      if newPwm != 0 && curFanSpeed.value == 0 {
        o := fc.StartFan();
        if o.Fail? {
          return;
        }
      }

      o := fc.SetFanPwm(newPwm);
    }

    /** The filter and the stall guard of `update`, on the step size kept here. */
    method Filter(computedPwm: int, curPwm: int, curFanSpeed: int, minStop: int) returns (newPwm: int)
      modifies this
      ensures var (filtered, step) := StepLimit(computedPwm, curPwm, old(upStep));
              (newPwm, upStep) == StallGuard(filtered, step, curFanSpeed, minStop)
    {
      if computedPwm > curPwm {
        upStep := upStep + 1;
        newPwm := curPwm + upStep;
        if newPwm >= computedPwm {
          newPwm := computedPwm;
          upStep := 0;
        }
      } else {
        newPwm := computedPwm;
        upStep := 0;
      }

      if curFanSpeed == 0 && newPwm < minStop {
        newPwm := 0;
        upStep := upStep * 2;
      }
    }
  }

  // ---------------------------------------------------------------------------
  // The filter over several ticks

  /** 1 + 2 + ... + n. */
  function Tri(n: nat): nat {
    if n == 0 then 0 else Tri(n - 1) + n
  }

  lemma {:induction false} TriMonotone(m: nat, n: nat)
    requires m <= n
    ensures Tri(m) <= Tri(n)
    decreases n
  {
    if m < n {
      TriMonotone(m, n - 1);
    }
  }

  /** The filter applied `n` times, each time to its own previous output. */
  function Climb(cur: int, target: int, upStep: nat, n: nat): (int, nat)
    decreases n
  {
    if n == 0 then (cur, upStep)
    else var (v, u) := StepLimit(target, cur, upStep); Climb(v, target, u, n - 1)
  }

  lemma {:induction false} ClimbAtTarget(target: int, upStep: nat, n: nat)
    requires 0 < n
    ensures Climb(target, target, upStep, n) == (target, 0)
    decreases n
  {
    if 1 < n {
      ClimbAtTarget(target, 0, n - 1);
    }
  }

  lemma {:induction false} ClimbFrom(base: int, target: int, k: nat, n: nat)
    requires base + Tri(k) < target
    ensures Climb(base + Tri(k), target, k, n)
            == if base + Tri(k + n) < target then (base + Tri(k + n), k + n) else (target, 0)
    decreases n
  {
    if n > 0 {
      if base + Tri(k + 1) < target {
        assert StepLimit(target, base + Tri(k), k) == (base + Tri(k + 1), k + 1);
        ClimbFrom(base, target, k + 1, n - 1);
        assert k + 1 + (n - 1) == k + n;
      } else {
        assert StepLimit(target, base + Tri(k), k) == (target, 0);
        TriMonotone(k + 1, k + n);
        if n > 1 {
          ClimbAtTarget(target, 0, n - 1);
        }
      }
    }
  }

  /** Under a constant target above the current value, with the step at rest, the
      applied value after `n` ticks is `cur + (1 + 2 + ... + n)` -- increments that
      grow by one each tick -- until it reaches the target, where it stays with
      the step back at 0. */
  lemma ClimbTowardTarget(cur: int, target: int, n: nat)
    requires cur < target
    ensures Climb(cur, target, 0, n)
            == if cur + Tri(n) < target then (cur + Tri(n), n) else (target, 0)
  {
    ClimbFrom(cur, target, 0, n);
  }

  // ---------------------------------------------------------------------------
  // One tick

  /** The stall guard: a stopped fan with a filtered value below `min_stop` gets
      0, no start sequence, and the step the filter left, doubled. */
  lemma StallGuardZeroes(curve: PwmComputer, minStop: int, temperature: int, cur: int,
                         speed: int, upStep: nat)
    ensures var d := Decide(curve, minStop, temperature, cur, speed, upStep);
      var f := StepLimit(PwmFor(curve, temperature), cur, upStep);
      && (speed == 0 && f.0 < minStop ==> d.applied == 0 && d.upStep == 2 * f.1 && !d.start)
      && (speed != 0 || minStop <= f.0 ==> d.applied == f.0 && d.upStep == f.1)
      && (d.start <==> d.applied != 0 && speed == 0)
  {
  }

  predicate Distinct(ports: Ports) {
    && ports.tempSensor != ports.controller
    && ports.tempSensor != ports.fanSensor
    && ports.controller != ports.fanSensor
  }

  /** A tick whose reads fail writes nothing and keeps the step. */
  lemma TickReadFailure(e: Env, ports: Ports, p: Params, curve: PwmComputer, upStep: nat)
    requires e.Avail(ports.tempSensor) == [] || e.Avail(ports.controller) == []
             || e.Avail(ports.fanSensor) == []
    ensures var r := TickRun(e, ports, p, curve, upStep);
      && r.outcome.Fail? && r.outcome.error.ReadFailed?
      && r.upStep == upStep && r.env.written == e.written
  {
  }

  /** With its three readings available, a tick keeps the step the decision
      computes; it runs the start sequence exactly when the decision asks for it
      (its first write is then `min_start`), otherwise writes once; and when it
      succeeds, its last write is the decided value. */
  lemma TickEffects(e: Env, ports: Ports, p: Params, curve: PwmComputer, upStep: nat)
    requires Distinct(ports)
    requires e.Avail(ports.tempSensor) != [] && e.Avail(ports.controller) != []
             && e.Avail(ports.fanSensor) != []
    ensures var d := Decide(curve, p.minStop, e.Avail(ports.tempSensor)[0],
                            e.Avail(ports.controller)[0], e.Avail(ports.fanSensor)[0], upStep);
      var r := TickRun(e, ports, p, curve, upStep);
      && r.upStep == d.upStep
      && e.written <= r.env.written
      && (r.outcome.Pass? ==>
            |r.env.written| > |e.written| && Last(r.env.written) == Access(ports.controller, d.applied))
      && (!d.start ==> r.env.written == WriteTo(e, ports.controller, d.applied).env.written)
      && (d.start && ports.controller in e.writable ==>
            |r.env.written| > |e.written| &&
            r.env.written[|e.written|] == Access(ports.controller, p.minStart))
  {
    var t := Read(e, ports.tempSensor);
    var c := Read(t.env, ports.controller);
    var s := Read(c.env, ports.fanSensor);
    assert s.env.written == e.written;
    var d := Decide(curve, p.minStop, t.result.value, c.result.value, s.result.value, upStep);
    if d.start {
      StartFanEffects(s.env, ports, p);
    }
  }
}

=== FILE: sysfs.dfy ===
/**
  The device files the daemon talks to (hwmon pseudo-files), seen as an oracle.

  Every path has a queue of values that successive reads of it yield; a read of a
  path whose queue is empty (or that cannot be opened at all) fails, as
  `read_value` does when the stream cannot be parsed.  A write to a path outside
  `writable` fails, as `write_value` does when the stream cannot be written.
  Successful writes are appended to `written`, successful reads to `seen`.
 */
module Sysfs {

  /** One value written to, or read from, one path. */
  datatype Access = Access(path: string, value: int)

  /** Which endpoint the controller could not open when it was constructed. */
  datatype Endpoint = PwmDevice | FanSensorDevice | TemperatureSensorDevice

  /** The `std::runtime_error`s of the core, one constructor per message. */
  datatype Error =
    | ReadFailed(path: string)               // "Unable to read <path>!"
    | WriteFailed(path: string, value: int)  // "Unable to write <value> to <path>!"
    | CouldNotOpen(endpoint: Endpoint)       // "Could not open ... device!"
    | TemperatureTooHigh                     // "Temperature too high!"
    | NoFanStartDetected                     // "No fan start detected!"
    | UnableToStartFan                       // "Unable to start fan!"
    | NoSettledPoint                         // values.rbegin() dereferenced on an empty vector

  datatype Result<T> = Ok(value: T) | Err(error: Error)

  datatype Outcome = Pass | Fail(error: Error)

  /** The state of all device files at one moment. */
  datatype Env = Env(pending: map<string, seq<int>>, writable: set<string>,
                     written: seq<Access>, seen: seq<Access>)
  {
    /** The values the next reads of `path` will yield, in order. */
    function Avail(path: string): seq<int> {
      if path in pending then pending[path] else []
    }
  }

  /** What a read leaves behind: the value (or the error) and the new state. */
  datatype Run<T> = Run(result: Result<T>, env: Env)

  /** What a procedure without a value leaves behind. */
  datatype Done = Done(outcome: Outcome, env: Env)

  function Last<T>(s: seq<T>): T
    requires |s| > 0
  {
    s[|s| - 1]
  }

  /** `read_value(path)`: yields the next pending value of `path`, or fails. */
  function Read(e: Env, path: string): (r: Run<int>)
    ensures r.env.writable == e.writable && r.env.written == e.written
    ensures r.result.Ok? <==> e.Avail(path) != []
    ensures r.result.Ok? ==>
              && r.result.value == e.Avail(path)[0]
              && r.env.Avail(path) == e.Avail(path)[1..]
              && r.env.seen == e.seen + [Access(path, r.result.value)]
    ensures r.result.Err? ==> r == Run(Err(ReadFailed(path)), e)
  {
    var s := e.Avail(path);
    if s == [] then Run(Err(ReadFailed(path)), e)
    else Run(Ok(s[0]), e.(pending := e.pending[path := s[1..]],
                          seen := e.seen + [Access(path, s[0])]))
  }

  /** A read takes a value from its own path's queue only: every other path's
      queue is left as it was. */
  lemma ReadFrame(e: Env, path: string, other: string)
    ensures var r := Read(e, path);
      && (r.result.Ok? ==> r.env.pending == e.pending[path := e.Avail(path)[1..]])
      && (r.result.Err? ==> r.env.pending == e.pending)
      && (other != path ==> r.env.Avail(other) == e.Avail(other))
  {
  }

  /** Reads of two different paths do not interfere: in either order they yield
      the same two values and leave the same queues behind. */
  lemma ReadsCommute(e: Env, a: string, b: string)
    requires a != b
    ensures var ab1 := Read(e, a); var ab2 := Read(ab1.env, b);
      var ba1 := Read(e, b); var ba2 := Read(ba1.env, a);
      && ab1.result == ba2.result && ab2.result == ba1.result
      && ab2.env.pending == ba2.env.pending
  {
  }

  /** `write_value(path, value)`: logs the write, or fails without effect. */
  function WriteTo(e: Env, path: string, value: int): (r: Done)
    ensures r.env.pending == e.pending && r.env.writable == e.writable && r.env.seen == e.seen
    ensures r.outcome.Pass? <==> path in e.writable
    ensures r.env.written == if path in e.writable then e.written + [Access(path, value)] else e.written
    ensures r.outcome.Fail? ==> r.outcome.error == WriteFailed(path, value)
  {
    if path in e.writable then Done(Pass, e.(written := e.written + [Access(path, value)]))
    else Done(Fail(WriteFailed(path, value)), e)
  }

  /** The device files themselves; the controller refers to them and changes them. */
  class Device {
    var pending: map<string, seq<int>>
    const writable: set<string>
    var written: seq<Access>
    var seen: seq<Access>

    constructor (pending: map<string, seq<int>>, writable: set<string>)
      ensures State() == Env(pending, writable, [], [])
    {
      this.pending := pending;
      this.writable := writable;
      written, seen := [], [];
    }

    function State(): Env
      reads this
    {
      Env(pending, writable, written, seen)
    }
  }
}

=== FILE: value_history.dfy ===
/**
  `value_history`: the fixed-size window of recent samples the calibration uses
  to decide that a reading has settled.  It starts as `samples` zeros; pushing
  drops the oldest sample and appends the new one.
 */
module ValueHistories {

  const TWO_63: int := 0x8000_0000_0000_0000
  const TWO_64: int := 0x1_0000_0000_0000_0000

  /** The window a `value_history` of `n` samples starts with. */
  function Zeros(n: nat): (r: seq<int>)
    ensures |r| == n && forall i :: 0 <= i < n ==> r[i] == 0
  {
    seq(n, _ => 0)
  }

  /** The result of dividing two `double`s: a number, an infinity or NaN. */
  datatype Ratio = Finite(value: real) | PositiveInfinity | NegativeInfinity | NotANumber

  /** IEEE 754 division of `num` by `den`, both exact integers. */
  function Quotient(num: int, den: int): Ratio {
    if den != 0 then Finite(num as real / den as real)
    else if num > 0 then PositiveInfinity
    else if num < 0 then NegativeInfinity
    else NotANumber
  }

  /** IEEE 754 `q < precision` for a finite `precision`: false on NaN and on +inf. */
  predicate Below(q: Ratio, precision: real) {
    match q
    case Finite(v) => v < precision
    case PositiveInfinity => false
    case NegativeInfinity => true
    case NotANumber => false
  }

  /** The sum of `s`, added from the front as the loop in `mean` does. */
  function Sum(s: seq<int>): int {
    if s == [] then 0 else Sum(s[..|s| - 1]) + s[|s| - 1]
  }

  /** `std::min_element`, dereferenced. */
  function Min(s: seq<int>): int
    requires s != []
  {
    if |s| == 1 then s[0]
    else var m := Min(s[1..]); if s[0] <= m then s[0] else m
  }

  /** `std::max_element`, dereferenced. */
  function Max(s: seq<int>): int
    requires s != []
  {
    if |s| == 1 then s[0]
    else var m := Max(s[1..]); if s[0] >= m then s[0] else m
  }

  /** The smallest and the largest sample are samples, and bound every sample. */
  lemma {:induction false} MinMaxBound(s: seq<int>)
    requires s != []
    ensures Min(s) in s && Max(s) in s
    ensures forall i :: 0 <= i < |s| ==> Min(s) <= s[i] <= Max(s)
    decreases |s|
  {
    if |s| > 1 {
      MinMaxBound(s[1..]);
      assert forall i :: 1 <= i < |s| ==> s[i] == s[1..][i - 1];
    }
  }

  /** `range_relative`: `(max - min) / min` in `double`. */
  function RangeRelativeOf(h: seq<int>): Ratio
    requires h != []
  {
    Quotient(Max(h) - Min(h), Min(h))
  }

  /** `mean`: the `long` sum divided by the `size_t` size, cast back to `long`.
      The division is unsigned, so the sum is first taken modulo 2^64. */
  function MeanOf(h: seq<int>): int
    requires h != []
  {
    var quotient := (Sum(h) % TWO_64) / |h|;
    if quotient < TWO_63 then quotient else quotient - TWO_64
  }

  /** The window after pushing every value of `vals`, in order. */
  function PushAll(h: seq<int>, vals: seq<int>): (r: seq<int>)
    requires h != []
    ensures |r| == |h|
    decreases |vals|
  {
    if vals == [] then h else PushAll(h[1..] + [vals[0]], vals[1..])
  }

  class ValueHistory {
    var history: seq<int>

    constructor (samples: nat)
      ensures history == Zeros(samples)
    {
      history := Zeros(samples);
    }

    method Push(val: int)
      requires history != []
      modifies this
      ensures history == old(history)[1..] + [val]
    {
      history := history[1..] + [val];
    }

    method RangeRelative() returns (q: Ratio)
      requires history != []
      ensures q == RangeRelativeOf(history)
    {
      var lo := Min(history);
      var hi := Max(history);
      q := Quotient(hi - lo, lo);
    }

    method Mean() returns (m: int)
      requires history != []
      ensures m == MeanOf(history)
    {
      var sum := 0;
      var i := 0;
      while i < |history|
        invariant 0 <= i <= |history|
        invariant sum == Sum(history[..i])
      {
        assert history[..i + 1][..i] == history[..i];
        sum := sum + history[i];
        i := i + 1;
      }
      assert history[..i] == history;
      var quotient := (sum % TWO_64) / |history|;
      m := if quotient < TWO_63 then quotient else quotient - TWO_64;
    }
  }

  // ---------------------------------------------------------------------------
  // What the window promises

  lemma {:induction false} SumAtLeast(s: seq<int>, lo: int)
    requires forall i :: 0 <= i < |s| ==> lo <= s[i]
    ensures |s| * lo <= Sum(s)
    decreases |s|
  {
    if s != [] {
      SumAtLeast(s[..|s| - 1], lo);
      assert |s| * lo == (|s| - 1) * lo + lo;
    }
  }

  lemma {:induction false} SumAtMost(s: seq<int>, hi: int)
    requires forall i :: 0 <= i < |s| ==> s[i] <= hi
    ensures Sum(s) <= |s| * hi
    decreases |s|
  {
    if s != [] {
      SumAtMost(s[..|s| - 1], hi);
      assert |s| * hi == (|s| - 1) * hi + hi;
    }
  }

  lemma MulMonotone(n: nat, a: int, b: int)
    requires a <= b
    ensures n * a <= n * b
  {
  }

  lemma {:induction false} SumNonNegative(s: seq<int>)
    requires forall i :: 0 <= i < |s| ==> 0 <= s[i]
    ensures 0 <= Sum(s)
    decreases |s|
  {
    if s != [] {
      SumNonNegative(s[..|s| - 1]);
    }
  }

  /** For non-negative samples whose sum fits in a `long`, `mean` is the truncated
      average, and lies between the smallest and the largest sample. */
  lemma MeanOfNonNegative(h: seq<int>)
    requires h != [] && forall i :: 0 <= i < |h| ==> 0 <= h[i]
    requires Sum(h) < TWO_63
    ensures MeanOf(h) == Sum(h) / |h|
    ensures Min(h) <= MeanOf(h) <= Max(h)
  {
    SumNonNegative(h);
    MinMaxBound(h);
    SumAtLeast(h, Min(h));
    SumAtMost(h, Max(h));
    QuotientBelow(Sum(h), |h|);
    QuotientBetween(Sum(h), |h|, Min(h), Max(h));
  }

  lemma QuotientBelow(total: int, n: int)
    requires 0 <= total < TWO_63 && 0 < n
    ensures (total % TWO_64) / n == total / n < TWO_63
  {
    assert total % TWO_64 == total;
    var q := total / n;
    assert n * q <= total;
    MulMonotone(q, 1, n);
  }

  lemma QuotientBetween(total: int, n: int, lo: int, hi: int)
    requires 0 < n && n * lo <= total <= n * hi
    ensures lo <= total / n <= hi
  {
    var q, rem := total / n, total % n;
    assert total == n * q + rem && 0 <= rem < n;
    if q < lo {
      MulMonotone(n, q + 1, lo);
    }
    if hi < q {
      MulMonotone(n, hi + 1, q);
    }
  }

  /** The window `[5, 5, 5, 5, 5]` has mean 5. */
  lemma MeanOfFives()
    ensures MeanOf([5, 5, 5, 5, 5]) == 5
  {
    assert Sum([5, 5, 5, 5, 5]) == 25 by {
      assert [5, 5, 5, 5, 5][..4] == [5, 5, 5, 5];
      assert [5, 5, 5, 5][..3] == [5, 5, 5];
      assert [5, 5, 5][..2] == [5, 5];
      assert [5, 5][..1] == [5];
      assert [5][..0] == [];
    }
  }

  /** The unsigned division makes a negative sum meaningless: `[-2, 0]` has mean
      2^63 - 1, not -1. */
  lemma MeanOfNegativeSum()
    ensures MeanOf([-2, 0]) == TWO_63 - 1
  {
    assert Sum([-2, 0]) == -2 by {
      assert [-2, 0][..1] == [-2];
      assert [-2][..0] == [];
    }
  }

  /** A window of one repeated nonzero value has relative range 0. */
  lemma {:induction false} RangeRelativeOfConstant(n: nat, v: int)
    requires 0 < n && v != 0
    ensures RangeRelativeOf(seq(n, _ => v)) == Finite(0.0)
  {
    var h := seq(n, _ => v);
    MinMaxBound(h);
  }

  /** While a window of non-negative samples holds a 0, `range_relative() < precision`
      is never true: the quotient is +inf or NaN. */
  lemma ZeroNeverSettles(h: seq<int>, precision: real)
    requires h != [] && forall i :: 0 <= i < |h| ==> 0 <= h[i]
    requires 0 in h
    ensures !Below(RangeRelativeOf(h), precision)
  {
    MinMaxBound(h);
  }

  /** A fresh window of `n` zeros still holds a 0 after fewer than `n` pushes. */
  lemma FreshWindowHoldsZero(n: nat, vals: seq<int>)
    requires |vals| < n
    ensures 0 in PushAll(Zeros(n), vals)
  {
    ZerosSurvive(Zeros(n), vals, n);
  }

  /** Pushing moves a leading run of `z` zeros one place to the front, shortening it. */
  lemma {:induction false} ZerosSurvive(h: seq<int>, vals: seq<int>, z: nat)
    requires z <= |h| && forall i :: 0 <= i < z ==> h[i] == 0
    requires |vals| < z
    ensures 0 in PushAll(h, vals)
    decreases |vals|
  {
    if vals != [] {
      var h' := h[1..] + [vals[0]];
      assert forall i :: 0 <= i < z - 1 ==> h'[i] == h[i + 1];
      ZerosSurvive(h', vals[1..], z - 1);
    } else {
      assert h[0] == 0;
    }
  }

  /** Hence a window of non-negative samples cannot settle before it has been
      filled with `n` new samples. */
  lemma FreshWindowUnsettled(n: nat, vals: seq<int>, precision: real)
    requires 0 < n && |vals| < n
    requires forall i :: 0 <= i < |vals| ==> 0 <= vals[i]
    ensures !Below(RangeRelativeOf(PushAll(Zeros(n), vals)), precision)
  {
    FreshWindowHoldsZero(n, vals);
    PushAllNonNegative(Zeros(n), vals);
    ZeroNeverSettles(PushAll(Zeros(n), vals), precision);
  }

  lemma {:induction false} PushAllNonNegative(h: seq<int>, vals: seq<int>)
    requires h != []
    requires forall i :: 0 <= i < |h| ==> 0 <= h[i]
    requires forall i :: 0 <= i < |vals| ==> 0 <= vals[i]
    ensures forall i :: 0 <= i < |PushAll(h, vals)| ==> 0 <= PushAll(h, vals)[i]
    decreases |vals|
  {
    if vals != [] {
      PushAllNonNegative(h[1..] + [vals[0]], vals[1..]);
    }
  }
}
